=== FILE: README.md ===
# ResourceCompiler, modelled in Dafny

ResourceCompiler turns a folder of raw localisation sources (`.txt`,
`.restext`, `.resx`) into .NET resource assemblies, in two phases.

1. **The default library.** For each raw source directly in the source folder:
   - ResGen compiles it into a `.resources` blob;
   - ResGen also produces a public accessor class, whose namespace and class
     name come from the dotted file name;
   - csc then compiles into one library every `*.resources` blob and every
     `*.cs` file directly in the output folder, whether this run made them or
     not;
   - those blobs are deleted, and so is every `*.cs` file directly
     in the output folder, generated or not. Under the default settings the
     output folder is also the source folder.
2. **Satellite libraries.** Each sub-folder of the source folder is read as a
   culture name:
   - its raw sources are compiled into culture-tagged blobs and linked by al
     into `<namespace>.resources.dll` under the culture's output folder;
   - every sub-folder of a culture folder gives one more satellite library,
     named after that sub-folder;
   - invalid culture names and cultures that produced no library are reported,
     and the walk goes on.

Before all this, the program checks that the Windows SDK folder, ResGen, csc
and al exist. It then reads three settings from the application
configuration. An unset source folder falls back to the output folder.

Some behaviour of the code that the model keeps as written:

- `resourceMainAtRoot` keeps its initial value `true`; no setting changes it
  (Program.cs:27, 43-45).
- When the source folder holds no raw source, the program reports it and ends;
  no culture is built (Program.cs:63-68).
- Each `/embed:` argument of al is the blob path alone (Program.cs:197-200).
- With `resourceMainAtRoot`, the default library is `<namespace>.dll`, a path
  relative to the current directory (Program.cs:102-103).

## How the model is organised

- **Pure parts** are datatypes, functions and lemmas:
  - `Naming`: deriving names from dotted file names;
  - `Discovery`: the raw-source filter;
  - `Config`: configuration lookup and the source-folder fallback;
  - `Tools`: tool locations and the dependency check;
  - `Arguments`: the compiler and linker command lines;
  - `Strings`, `Paths`, `Seqs`: the string, path and LINQ operations these use.
- **The machine** is the class `Host.Host`, with these fields:
  - files and directories, as paths in enumeration order;
  - a log of the external tool runs;
  - the console messages the program writes;
  - `succeeds`, which decides whether a tool run writes the files it was asked
    for.
- **The program** is the class `Build.Program`:
  - its state is the four static settings, with the host and the tool
    locations as constants;
  - each step of `Main` is a method, proved against specification functions
    such as `RawResources`, `AfterCalls`, `DefaultCleanup` and `CultureReports`;
  - the loops that build command lines with `StringBuilder` are methods,
    proved against the argument lists `CompilerArgv` and `LinkerArgv`.

## Model

| member | source | states |
|---|---|---|
| Seqs.Filter | Program.cs:212-216 | The LINQ `Where` keeps exactly the elements that satisfy the predicate, and never grows the sequence |
| Seqs.FilterAppend | Program.cs:212-216 | The filter distributes over concatenation, so it keeps the enumeration order |
| Strings.JoinSplit | Program.cs:74-77 | Joining the pieces of `Split` with the same separator gives back the string |
| Strings.SplitJoin | Program.cs:100-108 | Splitting a join of separator-free pieces gives back the pieces |
| Strings.SplitConcat | Program.cs:74-78 | Splitting `a + sep + b` is splitting `a` followed by splitting `b` |
| Paths.Combine | Program.cs:81-83 | Computes `Path.Combine`: an empty name gives the folder, a rooted name replaces it, otherwise the name follows the folder and one separator |
| Paths.GetFileName | Program.cs:71 | Computes `Path.GetFileName`: what follows the last `\`, `/` or `:` |
| Paths.GetFileNameWithoutExtension | Program.cs:71 | Computes `Path.GetFileNameWithoutExtension`: the file name up to its last dot |
| Paths.FileNameNoSeparator | Program.cs:71 | A file name, with or without its extension, has no directory separator |
| Paths.CombineInDir | Program.cs:81-83 | A separator-free name combined with a folder lies directly in that folder, and `GetFileName` recovers the name |
| Paths.InDirCombine | Program.cs:126 | Every entry of a folder is that folder combined with its own non-empty file name |
| Naming.DeriveNames | Program.cs:71-79 | The derived class name never contains a dot |
| Naming.DeriveDotted | Program.cs:74-79 | With a dot in the base name, the namespace is the root, a dot and everything before the last dot; the class is what follows the last dot |
| Naming.DeriveUndotted | Program.cs:73-75 | Without a dot, the namespace is the root and the class is the whole base name |
| Naming.DeriveRoundTrip | Program.cs:73-81 | In both cases `namespace.class` is `root.baseName` |
| Naming.DefaultBlobNameRoundTrip | Program.cs:81 | The default blob of base name `b` is `root.b.resources` |
| Naming.DefaultBlobNameInjective | Program.cs:81 | Distinct base names never share a default blob |
| Naming.SatelliteMatchesDefault | Program.cs:183 | A satellite blob under the root namespace is the matching default blob name with the culture before `.resources` |
| Discovery.RawResources | Program.cs:210-217 | Exactly the entries ending in `.txt`, `.restext` or `.resx`, ignoring case, are kept |
| Discovery.RawResourcesOrder | Program.cs:212-216 | The filter maps a concatenation to the concatenation of its results, and decides each entry on its own |
| Discovery.RawResourceByExtension | Program.cs:212-216 | An entry is kept exactly when its extension, folded to lower case, is `.txt`, `.restext` or `.resx` |
| Config.ConfigTryGet | Program.cs:259-266 | The value is replaced only by a present, non-empty configured value, and the result says whether it was |
| Config.Load | Program.cs:39-53 | Computes the settings: each of the three keys replaces its setting when configured with a non-empty value; an empty source folder then falls back to the output folder; `mainAtRoot` is never configured |
| Config.LoadStable | Program.cs:39-53 | Reading the configuration a second time changes nothing |
| Config.LoadSourceFallback | Program.cs:52-53 | The source folder is empty only when the output folder is, and it differs from the output folder only when it was configured or set initially |
| Config.LoadFromDefaults | Program.cs:27-53 | From the static defaults, every setting the build uses is non-empty, and an unconfigured source folder is the output folder |
| Tools.SdkPath | Program.cs:21 | Computes the SDK tools folder: `Microsoft SDKs\Windows\v8.0A\bin\NETFX 4.0 Tools` under the x86 program-files folder |
| Tools.Locate | Program.cs:21-25 | Computes the four tool locations: the SDK folder, ResGen and al in it, and csc in the runtime folder |
| Tools.LocateSpec | Program.cs:21-25 | ResGen and al lie directly in the SDK folder and csc in the runtime folder, under their own names, so the three paths are distinct |
| Tools.FirstMissing | Program.cs:158-171 | Computes `checkPaths`: the SDK folder, ResGen, csc and al are tested in this order, and the first one missing is the answer |
| Tools.FirstMissingSpec | Program.cs:158-171 | The check passes exactly when all four dependencies exist; a dependency is reported exactly when it is missing and every one checked before it exists |
| Arguments.DefaultLibraryPath | Program.cs:102-105 | Computes the default library: `<namespace>.dll` in the current folder when `mainAtRoot`, otherwise in the output folder |
| Arguments.CompilerArgv | Program.cs:100-108 | Computes the compiler arguments one by one: `/target:library`, `/out:` and the library, one `/res:` per blob in order, then the `*.cs` wildcard of the output folder |
| Arguments.CompilerArguments | Program.cs:100-108 | The builder loop produces the compiler arguments joined by spaces: a library target, the output, one `/res:` per blob in order, then the source wildcard |
| Arguments.CompilerArgvNoSpace | Program.cs:100-108 | No compiler argument contains a space when neither the namespace, the output folder nor any blob does |
| Arguments.CompilerTokens | Program.cs:100-108 | Under the same conditions, splitting the command line at spaces gives back the target, the output, exactly one `/res:` per blob in order, and the wildcard |
| Arguments.LinkerArgv | Program.cs:192-201 | Computes the linker arguments one by one: `/target:lib`, `/culture:` and the culture, `/out:` and the library, then one `/embed:` per blob in order |
| Arguments.LinkerArguments | Program.cs:192-201 | The builder loop produces the linker arguments joined by spaces: `/target:lib`, the culture, the output, one `/embed:` per blob in order |
| Arguments.LinkerTokens | Program.cs:192-201 | When nothing contains a space, splitting the linker command line gives back its arguments, with exactly one `/embed:` per blob in order |
| Host.EntriesSpec | Program.cs:212 | A top-directory listing holds exactly the paths directly inside the folder |
| Host.AfterCall | Program.cs:86 | After a tool run, the files are the old ones plus, if the run succeeded, the files it was asked to write |
| Host.AfterCallsWrites | Program.cs:69-87 | Every file requested by a successful run of a sequence exists afterwards |
| Host.AfterCallsOnlyWrites | Program.cs:69-87 | A sequence of runs creates no file that none of them was asked for |
| Host.Host.GetFiles | Program.cs:62 | The listing of an existing folder is its entries; a missing folder is an error |
| Host.Host.GetDirectories | Program.cs:123 | The sub-folders of an existing folder are its entries; a missing folder is an error |
| Host.Host.CreateDirectory | Program.cs:55 | The folder exists afterwards; an existing folder is left as it is; nothing else changes |
| Host.Host.Delete | Program.cs:115 | The file is gone and nothing else changes |
| Host.Host.Exec | Program.cs:220-241 | The run is logged, and its output files exist afterwards when it succeeds |
| Host.Host.Write | Program.cs:243-249 | The message is appended to the console and nothing else changes |
| Build.Blobs | Program.cs:93 | Exactly the files directly in the folder that match `*.resources`, ignoring case |
| Build.ClassFiles | Program.cs:117 | Exactly the files directly in the folder that match `*.cs`, ignoring case |
| Build.DefaultCall | Program.cs:71-86 | Computes the ResGen run for one default source: `file outfile /str:cs,ns,class,classPath /publicClass`, asked to write the blob `<ns>.<class>.resources` and the class file `<class>.cs` in the output folder |
| Build.SatelliteCall | Program.cs:183-184 | Computes the ResGen run for one culture source: `file outfile`, asked to write the blob `<libNs>.<name>.<culture>.resources` in the culture's output folder |
| Build.DefaultCalls | Program.cs:69-87 | Computes the ResGen runs of the default build, one `DefaultCall` per raw source, in order |
| Build.SatelliteCalls | Program.cs:181-185 | Computes the ResGen runs of one satellite library, one `SatelliteCall` per raw source, in order; all of them run ResGen |
| Build.CompileCall | Program.cs:100-110 | Computes the csc run over the blobs, asked to write the default library |
| Build.SatelliteLibraryPath | Program.cs:196 | Computes the satellite library: `<libNs>.resources.dll` in the culture's output folder |
| Build.LinkCall | Program.cs:192-202 | Computes the al run over the blobs, asked to write `<libNs>.resources.dll` in the culture's output folder |
| Build.DefaultCleanup | Program.cs:112-119 | After clean-up, the files are those present before, minus every blob the scan found and every `*.cs` file directly in the output folder, generated or not |
| Build.NotIntermediate | Program.cs:103-105 | A `.dll` path matches neither `*.resources` nor `*.cs`, so the clean-up never deletes the library |
| Build.DefaultCleanupLeavesNoIntermediates | Program.cs:92-120 | After compiling and cleaning up: no `*.resources` and no `*.cs` file is left directly in the output folder, whether this run made it or not; nothing else is deleted; the library exists whenever the compiler succeeded |
| Build.CultureReport | Program.cs:144-150 | Computes the message of one walked folder: "invalid culture" for a name that is no culture, "no resources" for a culture that linked nothing, otherwise none |
| Build.CultureReports | Program.cs:124-151 | Computes the messages of the culture walk, folder by folder in walk order |
| Build.CultureReportsSound | Program.cs:124-151 | Every message of the culture walk belongs to one of the walked folders |
| Build.CultureReportsComplete | Program.cs:124-151 | Every message due for a walked folder is written by the walk |
| Build.CultureReportsLength | Program.cs:144-150 | The walk writes at most one message per folder |
| Build.CultureReportsFrom | Program.cs:124-151 | Each message of the culture walk comes from one of the walked folders, and there is at most one per folder |
| Build.InvalidCultureReported | Program.cs:126-150 | A name is reported as invalid exactly when a walked folder has that name and it is not a culture |
| Build.NoResourcesReported | Program.cs:134-145 | A culture is reported as having no resources exactly when a walked folder names it and no library was linked for it |
| Build.CultureReportsKinds | Program.cs:122-151 | The culture walk writes no message except these two |
| Build.CultureJobs | Program.cs:134-142 | The calls of `generateResourceLib` for a culture folder: the folder itself under the root namespace first, then each sub-folder in enumeration order under its own name |
| Build.LibEffect | Program.cs:173-207 | Computes `generateResourceLib`: no raw source means nothing happens; otherwise one ResGen run per source, a re-scan of the output folder, and, with blobs there, one al run over all of them, which are then deleted |
| Build.LibEffectLinks | Program.cs:173-207 | `generateResourceLib` returns true exactly when it ran al |
| Build.LibEffectCleansUp | Program.cs:187-206 | When it links, its last run is al writing `<libNs>.resources.dll`; no blob is left directly in the output folder; the library exists when al succeeded |
| Build.LibsEffect | Program.cs:134-142 | Computes the `generateResourceLib` calls of one culture, one after the other on the files the previous one left; the result is true when any of them returned true |
| Build.LibsEffectBuilt | Program.cs:134-142 | The calls for one culture built something exactly when one of them returned true |
| Build.CultureEffect | Program.cs:126-150 | Computes one pass of the culture walk: a name that is no culture changes nothing; otherwise the culture's output folder is created and the `generateResourceLib` calls of `CultureJobs` run into it |
| Build.WalkEffect | Program.cs:123-151 | The culture walk records one flag per walked folder |
| Build.WalkEffectAt | Program.cs:124-151 | The flag recorded for a folder is that of its own pass, made on the files and folders the earlier passes left |
| Build.NoResourcesExactly | Program.cs:134-145 | A culture is reported as having no resources exactly when a walked folder names it and no `generateResourceLib` call for that folder returned true |
| Build.CompileEffect | Program.cs:90-120 | Computes the second half of the default build: no blob in the output folder stops it; otherwise one csc run and the clean-up |
| Build.SourcesEffect | Program.cs:69-120 | Computes the default build once raw sources are found: one ResGen run per source, then `CompileEffect` on the files they leave |
| Build.DefaultEffect | Program.cs:57-120 | Computes the default build: a missing source folder stops it, no raw source stops it, otherwise one ResGen run per source and then `CompileEffect` |
| Build.DefaultReports | Program.cs:63-97 | Computes the message an early ending of the default build writes: "no default sources" or "unable to continue" |
| Build.EndOf | Program.cs:57-151 | Computes how `Main` ends from where the default build stopped |
| Build.BuildEffect | Program.cs:57-151 | Computes the build after the tool check: the default build, then, when it compiled, the culture walk over the folders directly in the source folder |
| Build.DefaultBuildLeavesNoIntermediates | Program.cs:57-120 | A default build that compiles leaves no `*.resources` and no `*.cs` file directly in the output folder, whoever made them; its last run is csc, and the library exists when that run succeeded; every other file that was there before is kept |
| Build.BuildReports | Program.cs:122-151 | A finished run writes only "invalid culture" and "no resources" messages, and "no resources" for a culture exactly when a walked folder names it and linked nothing |
| Build.Program.constructor | Program.cs:21-30 | The static initial settings and the tool locations |
| Build.Program.CheckPaths | Program.cs:158-171 | Succeeds exactly when no dependency is missing; otherwise it reports the first missing one; nothing else changes |
| Build.Program.LoadSettings | Program.cs:39-53 | The settings become those that `Config.Load` computes from the configuration |
| Build.Program.DeleteFiles | Program.cs:114-115 | Exactly the given files are removed |
| Build.Program.RunAll | Program.cs:181-185 | Each call is run in order; the log grows by those runs and the files are those after the calls |
| Build.Program.LinkSatellite | Program.cs:187-206 | The output folder is re-scanned for blobs. If there are none, nothing changes and it returns false. Otherwise al links them all into `<libNs>.resources.dll`, they are deleted, and it returns true |
| Build.Program.GenerateResourceLib | Program.cs:173-207 | The files, runs and result are those of `LibEffect`: no raw source means nothing happens; otherwise one ResGen run per source, the re-scan, and one al run over every blob found, which are then deleted |
| Build.Program.CompileBlobs | Program.cs:100-119 | One csc run over the blobs, then the blobs and every `*.cs` file directly in the output folder are deleted (`DefaultCleanup`); folders and messages are unchanged |
| Build.Program.CompileDefault | Program.cs:90-120 | With no blobs in the output folder, "unable to continue" is reported and nothing else changes. Otherwise one csc run follows, and the clean-up leaves the files that `DefaultCleanup` describes (`CompileEffect`) |
| Build.Program.BuildDefault | Program.cs:57-120 | Its ending, files and runs are those of `DefaultEffect`, with the one message each early ending writes; folders are unchanged |
| Build.Program.BuildLibs | Program.cs:134-142 | One `generateResourceLib` call for the culture folder, then one per sub-folder in enumeration order, all into the culture's output folder; the files, runs and result are those of `LibsEffect` over `CultureJobs` |
| Build.Program.BuildCulture | Program.cs:124-151 | The files, folders, runs and result are those of `CultureEffect`: an invalid name only gets reported; a culture gets its output folder and the `BuildLibs` calls, and "no resources" is reported exactly when none returned true |
| Build.Program.BuildCultures | Program.cs:124-151 | The files, folders, runs and flags are those of `WalkEffect` over the folders in order; the messages are those of `CultureReports` |
| Build.Program.WalkCultures | Program.cs:122-151 | The same, over every folder directly in the source folder, in enumeration order |
| Build.Program.Configure | Program.cs:38-55 | The settings are loaded, and the output folder exists afterwards |
| Build.Program.BuildAll | Program.cs:57-151 | The ending, files, folders, log and messages are those of `BuildEffect`: the default build, then the culture walk when it compiled |
| Build.Program.Configured | Program.cs:38-151 | The settings are loaded, then the build runs as `BuildEffect` describes over the folders after the output folder was created; a missing source folder can only be a configured one different from the output folder |
| Build.Program.Run | Program.cs:32-156 | A missing dependency is reported and nothing else happens. Otherwise the settings are loaded and the build runs as `BuildEffect` describes. A missing source folder can only be a configured one different from the output folder |
## Left out

- Console progress messages, `waitAnyKey` and the text of the messages are not modelled. The messages that matter are kept as `Host.Report` values: tool not found, no default sources, unable to continue, invalid culture, culture without resources.
- `exec` is not modelled beyond its effect. Process start, output streaming and the polling loop are out. A run is logged, and the `succeeds` oracle decides whether it writes the files it was asked for.
- What the tools write into those files is not modelled.
- The environment lookups are parameters of `Build.Program.constructor`: the x86 program-files folder (which depends on the operating system's bitness) and the .NET runtime directory.
- Loading the application settings is not modelled; they are given as a map. A configuration error is `None`.
- `CultureInfo.GetCultureInfo` is the parameter `resolve`. It maps a folder name to the culture's canonical name, or rejects it (`CultureNotFoundException`).
- Strings.Lower: case-insensitive suffix matching folds ASCII letters only; the invariant culture also folds other letters.
- Paths are compared as exact strings, while Windows paths are case-insensitive.
- Relative paths are not resolved against the current directory.
- `CreateDirectory` does not create missing parent folders.
- Exceptions other than a missing folder are not modelled: access denied, invalid path characters, a tool that cannot start.
- Host.Host.GetFiles: `Directory.GetFiles` on a missing source folder throws an unhandled exception, which ends the program. The model returns `None`, and `Run` ends with `SourceDirectoryMissing` and no message.
- Host.AfterCall: the files a run creates are listed after the files that already exist (`Seqs.AddAbsent`), so a later listing of a folder gives them in creation order. NTFS lists a folder in name order, which can change the order of the `/res:` and `/embed:` arguments and of the culture walk.
- Discovery.RawResources: the extension test folds case with `Strings.Lower` and compares characters exactly. `String.EndsWith` with `InvariantCultureIgnoreCase` also ignores zero-weight code points such as U+00AD (soft hyphen), so the program keeps `x.t\u00ADxt` and the model does not.
- Arguments.CompilerTokens and Arguments.LinkerTokens: the split-back guarantee is stated only for paths and names without spaces. The program does not quote arguments, so a space inside a path splits it into two tool arguments.

=== FILE: arguments.dfy ===
/** The command lines handed to the class compiler (csc) and the assembly
    linker (al), built by appending to a string builder. */
module Arguments {
  import opened Strings
  import opened Seqs
  import opened Paths

  /** Where the default library is written: the current directory when the
      library goes to the root, the output folder otherwise. */
  function DefaultLibraryPath(mainAtRoot: bool, ns: string, resourcePath: string): string
  {
    if mainAtRoot then ns + ".dll" else Combine(resourcePath, ns + ".dll")
  }

  /** The compiler's arguments one by one: a library target, the output, one
      `/res:` per blob in order, and every `*.cs` file of the output folder
      by wildcard. */
  function CompilerArgv(mainAtRoot: bool, ns: string, resourcePath: string, blobs: seq<string>): seq<string>
  {
    ["/target:library", "/out:" + DefaultLibraryPath(mainAtRoot, ns, resourcePath)]
      + Prefixed("/res:", blobs) + [Combine(resourcePath, "*.cs")]
  }

  /** The linker's arguments one by one: a library target, the culture, the
      output, and one `/embed:` per blob in order. */
  function LinkerArgv(culture: string, outFile: string, blobs: seq<string>): seq<string>
  {
    ["/target:lib", "/culture:" + culture, "/out:" + outFile] + Prefixed("/embed:", blobs)
  }

  /** One step of a builder loop: the prefixed list grows by the next element. */
  lemma PrefixedSnoc(prefix: string, s: seq<string>, i: nat)
    requires i < |s|
    ensures Prefixed(prefix, s[..i + 1]) == Prefixed(prefix, s[..i]) + [prefix + s[i]]
  {
  }

  /** One step of a builder loop: appending a space, the prefix and the next
      element extends the joined arguments by one. */
  lemma BuilderStep(head: seq<string>, prefix: string, glue: string, s: seq<string>, i: nat)
    requires head != [] && i < |s| && glue == " " + prefix
    ensures Join(head + Prefixed(prefix, s[..i + 1]), ' ') == Join(head + Prefixed(prefix, s[..i]), ' ') + glue + s[i]
  {
    var done := head + Prefixed(prefix, s[..i]);
    PrefixedSnoc(prefix, s, i);
    assert head + Prefixed(prefix, s[..i + 1]) == done + [prefix + s[i]];
    JoinSnoc(done, prefix + s[i], ' ');
    AppendAssoc(Join(done, ' '), [' '], prefix + s[i]);
    AppendAssoc(Join(done, ' '), " " + prefix, s[i]);
  }

  /** The compiler command line of `Main` (the `StringBuilder` loop). */
  method CompilerArguments(mainAtRoot: bool, ns: string, resourcePath: string, blobs: seq<string>) returns (args: string)
    ensures args == Join(CompilerArgv(mainAtRoot, ns, resourcePath, blobs), ' ')
  {
    var head := ["/target:library", "/out:" + DefaultLibraryPath(mainAtRoot, ns, resourcePath)];
    args := "/target:library";
    if mainAtRoot {
      args := args + " /out:" + ns + ".dll";
    } else {
      args := args + " /out:" + Combine(resourcePath, ns + ".dll");
    }
    assert args == Join(head + Prefixed("/res:", blobs[..0]), ' ') by {
      var out := DefaultLibraryPath(mainAtRoot, ns, resourcePath);
      assert args == "/target:library" + " /out:" + out;
      assert " /out:" == " " + "/out:";
      assert head + Prefixed("/res:", blobs[..0]) == head;
      assert Join(head, ' ') == "/target:library" + " " + ("/out:" + out);
    }
    var i := 0;
    while i < |blobs|
      invariant 0 <= i <= |blobs|
      invariant args == Join(head + Prefixed("/res:", blobs[..i]), ' ')
    {
      BuilderStep(head, "/res:", " /res:", blobs, i);
      args := args + " /res:" + blobs[i];
      i := i + 1;
    }
    assert blobs[..i] == blobs;
    JoinSnoc(head + Prefixed("/res:", blobs), Combine(resourcePath, "*.cs"), ' ');
    args := args + " " + Combine(resourcePath, "*.cs");
  }

  /** The linker command line of `generateResourceLib` (the `StringBuilder` loop). */
  method LinkerArguments(culture: string, outFile: string, blobs: seq<string>) returns (args: string)
    ensures args == Join(LinkerArgv(culture, outFile, blobs), ' ')
  {
    var head := ["/target:lib", "/culture:" + culture, "/out:" + outFile];
    args := "/target:lib /culture:";
    args := args + culture;
    args := args + " /out:";
    args := args + outFile;
    assert args == Join(head + Prefixed("/embed:", blobs[..0]), ' ') by {
      assert head + Prefixed("/embed:", blobs[..0]) == head;
      assert Join(head[2..], ' ') == "/out:" + outFile;
      assert Join(head[1..], ' ') == "/culture:" + culture + " " + Join(head[2..], ' ');
    }
    var i := 0;
    while i < |blobs|
      invariant 0 <= i <= |blobs|
      invariant args == Join(head + Prefixed("/embed:", blobs[..i]), ' ')
    {
      BuilderStep(head, "/embed:", " /embed:", blobs, i);
      args := args + " /embed:";
      args := args + blobs[i];
      i := i + 1;
    }
    assert blobs[..i] == blobs;
  }

  predicate NoSpace(s: string)
  {
    ' ' !in s
  }

  /** `Path.Combine` adds no space of its own. */
  lemma CombineNoSpace(dir: string, name: string)
    requires NoSpace(dir) && NoSpace(name)
    ensures NoSpace(Combine(dir, name))
  {
  }

  /** No argument of the list contains a space. */
  predicate AllNoSpace(args: seq<string>)
  {
    forall i :: 0 <= i < |args| ==> NoSpace(args[i])
  }

  lemma AllNoSpaceAppend(a: seq<string>, b: seq<string>)
    requires AllNoSpace(a) && AllNoSpace(b)
    ensures AllNoSpace(a + b)
  {
    forall i | 0 <= i < |a + b|
      ensures NoSpace((a + b)[i])
    {
      if i >= |a| {
        assert (a + b)[i] == b[i - |a|];
      }
    }
  }

  /** Prefixing space-free elements with a space-free prefix adds no space. */
  lemma PrefixedNoSpace(prefix: string, s: seq<string>)
    requires NoSpace(prefix) && AllNoSpace(s)
    ensures AllNoSpace(Prefixed(prefix, s))
  {
    forall i | 0 <= i < |s|
      ensures NoSpace(Prefixed(prefix, s)[i])
    {
      assert Prefixed(prefix, s)[i] == prefix + s[i];
    }
  }

  /** No compiler argument contains a space when no path or name does. */
  lemma CompilerArgvNoSpace(mainAtRoot: bool, ns: string, resourcePath: string, blobs: seq<string>)
    requires NoSpace(ns) && NoSpace(resourcePath) && AllNoSpace(blobs)
    ensures AllNoSpace(CompilerArgv(mainAtRoot, ns, resourcePath, blobs))
  {
    var out := "/out:" + DefaultLibraryPath(mainAtRoot, ns, resourcePath);
    var wildcard := Combine(resourcePath, "*.cs");
    assert NoSpace(out) by {
      CombineNoSpace(resourcePath, ns + ".dll");
    }
    assert NoSpace(wildcard) by {
      CombineNoSpace(resourcePath, "*.cs");
    }
    var head := ["/target:library", out];
    assert AllNoSpace(head);
    PrefixedNoSpace("/res:", blobs);
    AllNoSpaceAppend(head, Prefixed("/res:", blobs));
    AllNoSpaceAppend(head + Prefixed("/res:", blobs), [wildcard]);
  }

  /** When no path or name contains a space, splitting the compiler command
      line at spaces gives back its arguments: the target, the output, then
      exactly one `/res:` per blob in order, then the source wildcard. */
  lemma CompilerTokens(mainAtRoot: bool, ns: string, resourcePath: string, blobs: seq<string>)
    requires NoSpace(ns) && NoSpace(resourcePath) && AllNoSpace(blobs)
    ensures var tokens := Split(Join(CompilerArgv(mainAtRoot, ns, resourcePath, blobs), ' '), ' ');
            && |tokens| == |blobs| + 3
            && tokens[0] == "/target:library"
            && tokens[1] == "/out:" + DefaultLibraryPath(mainAtRoot, ns, resourcePath)
            && (forall i :: 0 <= i < |blobs| ==> tokens[i + 2] == "/res:" + blobs[i])
            && tokens[|blobs| + 2] == Combine(resourcePath, "*.cs")
  {
    CompilerArgvNoSpace(mainAtRoot, ns, resourcePath, blobs);
    SplitJoin(CompilerArgv(mainAtRoot, ns, resourcePath, blobs), ' ');
  }

  /** When neither the culture, the output nor any blob contains a space,
      splitting the linker command line at spaces gives back its arguments:
      exactly one `/embed:` per blob, in the order of the blobs. */
  lemma LinkerTokens(culture: string, outFile: string, blobs: seq<string>)
    requires NoSpace(culture) && NoSpace(outFile) && AllNoSpace(blobs)
    ensures var tokens := Split(Join(LinkerArgv(culture, outFile, blobs), ' '), ' ');
            && |tokens| == |blobs| + 3
            && tokens[..3] == ["/target:lib", "/culture:" + culture, "/out:" + outFile]
            && (forall i :: 0 <= i < |blobs| ==> tokens[i + 3] == "/embed:" + blobs[i])
  {
    var argv := LinkerArgv(culture, outFile, blobs);
    var head := ["/target:lib", "/culture:" + culture, "/out:" + outFile];
    assert AllNoSpace(head);
    PrefixedNoSpace("/embed:", blobs);
    AllNoSpaceAppend(head, Prefixed("/embed:", blobs));
    SplitJoin(argv, ' ');
  }
}

=== FILE: build.dfy ===
/** The build itself: `Main`, `generateResourceLib` and `checkPaths` of the
    program, over the host of module Host. */
module Build {
  import opened Wrappers
  import opened Seqs
  import opened Strings
  import opened Paths
  import opened Naming
  import opened Discovery
  import opened Config
  import opened Tools
  import opened Arguments
  import opened Host

  /** What the `*.resources` search pattern matches. */
  predicate IsBlob(f: string)
  {
    EndsWithIgnoreCase(f, ".resources")
  }

  /** What the `*.cs` search pattern matches. */
  predicate IsClassFile(f: string)
  {
    EndsWithIgnoreCase(f, ".cs")
  }

  /** The compiled blobs directly in `dir`, in enumeration order. */
  function Blobs(files: seq<string>, dir: string): (r: seq<string>)
    ensures forall f {:trigger f in r} :: f in r <==> f in files && InDir(f, dir) && IsBlob(f)
  {
    EntriesSpec(files, dir);
    Filter(Entries(files, dir), IsBlob)
  }

  /** The `*.cs` files directly in `dir`, generated or not, in enumeration order. */
  function ClassFiles(files: seq<string>, dir: string): (r: seq<string>)
    ensures forall f {:trigger f in r} :: f in r <==> f in files && InDir(f, dir) && IsClassFile(f)
  {
    EntriesSpec(files, dir);
    Filter(Entries(files, dir), IsClassFile)
  }

  /** The ResGen run for one default resource: a blob named after the derived
      namespace and symbol, plus a public accessor class in C#. */
  function DefaultCall(resgen: string, root: string, resourcePath: string, file: string): Call
  {
    var d := DeriveNames(root, GetFileNameWithoutExtension(file));
    var outfile := Combine(resourcePath, DefaultBlobName(d));
    var classPath := Combine(resourcePath, ClassFileName(d));
    var classinfo := "/str:cs," + Join([d.ns, d.symbol, classPath], ',');
    Call(Invocation(resgen, Join([file, outfile, classinfo, "/publicClass"], ' ')), [outfile, classPath])
  }

  /** The ResGen runs of the default build, one per raw source, in order. */
  function DefaultCalls(resgen: string, root: string, resourcePath: string, raw: seq<string>): (r: seq<Call>)
    ensures |r| == |raw|
  {
    if raw == [] then []
    else DefaultCalls(resgen, root, resourcePath, raw[..|raw| - 1]) + [DefaultCall(resgen, root, resourcePath, raw[|raw| - 1])]
  }

  /** The ResGen run for one culture resource: one culture-tagged blob. */
  function SatelliteCall(resgen: string, outPath: string, libNs: string, culture: string, file: string): Call
  {
    var outfile := Combine(outPath, SatelliteBlobName(libNs, GetFileNameWithoutExtension(file), culture));
    Call(Invocation(resgen, file + " " + outfile), [outfile])
  }

  /** The ResGen runs of one satellite library, one per raw source, in order. */
  function SatelliteCalls(resgen: string, outPath: string, libNs: string, culture: string, raw: seq<string>): (r: seq<Call>)
    ensures |r| == |raw|
    ensures forall k :: 0 <= k < |r| ==> r[k].invocation.tool == resgen
  {
    if raw == [] then []
    else SatelliteCalls(resgen, outPath, libNs, culture, raw[..|raw| - 1]) + [SatelliteCall(resgen, outPath, libNs, culture, raw[|raw| - 1])]
  }

  /** The csc run that builds the default library. */
  function CompileCall(csc: string, mainAtRoot: bool, ns: string, resourcePath: string, blobs: seq<string>): Call
  {
    Call(Invocation(csc, Join(CompilerArgv(mainAtRoot, ns, resourcePath, blobs), ' ')),
         [DefaultLibraryPath(mainAtRoot, ns, resourcePath)])
  }

  /** The satellite library of `libNs` in `outPath`. */
  function SatelliteLibraryPath(outPath: string, libNs: string): string
  {
    Combine(outPath, libNs + ".resources.dll")
  }

  /** The al run that links a satellite library. */
  function LinkCall(al: string, culture: string, outPath: string, libNs: string, blobs: seq<string>): Call
  {
    var dll := SatelliteLibraryPath(outPath, libNs);
    Call(Invocation(al, Join(LinkerArgv(culture, dll, blobs), ' ')), [dll])
  }

  /** The files after the default build's clean-up: the blobs it compiled are
      deleted, then every `*.cs` file directly in the output folder. */
  function DefaultCleanup(files: seq<string>, resourcePath: string, blobs: seq<string>): (r: seq<string>)
    ensures forall f :: f in r <==> f in files && f !in blobs && !(InDir(f, resourcePath) && IsClassFile(f))
  {
    var afterBlobs := Without(files, blobs);
    Without(afterBlobs, ClassFiles(afterBlobs, resourcePath))
  }

  /** A path whose last character is `l` (such as a `.dll`) matches neither
      `*.resources` nor `*.cs`. */
  lemma NotIntermediate(f: string)
    requires |f| > 0 && f[|f| - 1] == 'l'
    ensures !IsBlob(f) && !IsClassFile(f)
  {
    assert |f| >= 10 ==> Lower(f[|f| - 10..])[9] == 'l' != Lower(".resources")[9];
    assert |f| >= 3 ==> Lower(f[|f| - 3..])[2] == 'l' != Lower(".cs")[2];
  }

  /** The clean-up after compiling the default library leaves no blob and no
      `*.cs` file directly in the output folder, keeps the library, and
      deletes nothing else. */
  lemma DefaultCleanupLeavesNoIntermediates(files: seq<string>, csc: string, mainAtRoot: bool, ns: string,
                                            resourcePath: string, succeeds: Invocation -> bool)
    ensures var blobs := Blobs(files, resourcePath);
            var compile := CompileCall(csc, mainAtRoot, ns, resourcePath, blobs);
            var lib := DefaultLibraryPath(mainAtRoot, ns, resourcePath);
            var r := DefaultCleanup(AfterCall(files, compile, succeeds), resourcePath, blobs);
            && (succeeds(compile.invocation) ==> lib in r)
            && forall f :: f in r <==>
                 (f in files || (succeeds(compile.invocation) && f == lib))
                 && !(InDir(f, resourcePath) && (IsBlob(f) || IsClassFile(f)))
  {
    var blobs := Blobs(files, resourcePath);
    var lib := DefaultLibraryPath(mainAtRoot, ns, resourcePath);
    var r := DefaultCleanup(AfterCall(files, CompileCall(csc, mainAtRoot, ns, resourcePath, blobs), succeeds), resourcePath, blobs);
    var name := ns + ".dll";
    assert lib == name || lib == DirPrefix(resourcePath) + name;
    assert lib[|lib| - 1] == name[|name| - 1] == 'l';
    NotIntermediate(lib);
  }

  /** How the default build ended. */
  datatype DefaultStep = SourceMissing | NoSources | NoBlobs | Compiled

  /** How `Main` ended. */
  datatype Outcome =
    | ToolsMissing
    | SourceDirectoryMissing
    | NoDefaultResources
    | NoDefaultBlobs
    | Finished

  /** The console messages of the culture walk for one directory. */
  function CultureReport(name: string, resolve: string -> Option<string>, linked: bool): seq<Report>
  {
    match resolve(name)
    case None => [InvalidCulture(name)]
    case Some(c) => if linked then [] else [NoResources(c)]
  }

  /** The console messages of the culture walk, directory by directory. */
  function CultureReports(cultureDirs: seq<string>, resolve: string -> Option<string>, linked: seq<bool>): seq<Report>
    requires |linked| == |cultureDirs|
  {
    if cultureDirs == [] then []
    else
      var n := |cultureDirs| - 1;
      CultureReports(cultureDirs[..n], resolve, linked[..n]) + CultureReport(GetFileName(cultureDirs[n]), resolve, linked[n])
  }

  /** The culture walk's messages for one more directory. */
  lemma CultureReportsSnoc(cultureDirs: seq<string>, resolve: string -> Option<string>, linked: seq<bool>, dir: string, built: bool)
    requires |linked| == |cultureDirs|
    ensures CultureReports(cultureDirs + [dir], resolve, linked + [built])
         == CultureReports(cultureDirs, resolve, linked) + CultureReport(GetFileName(dir), resolve, built)
  {
    assert (cultureDirs + [dir])[..|cultureDirs|] == cultureDirs;
    assert (linked + [built])[..|linked|] == linked;
  }

  /** Every message of the culture walk comes from one of the walked directories. */
  lemma {:induction false} CultureReportsSound(cultureDirs: seq<string>, resolve: string -> Option<string>, linked: seq<bool>, r: Report)
    requires |linked| == |cultureDirs| && r in CultureReports(cultureDirs, resolve, linked)
    ensures exists k :: 0 <= k < |cultureDirs| && r in CultureReport(GetFileName(cultureDirs[k]), resolve, linked[k])
    decreases |cultureDirs|
  {
    var n := |cultureDirs| - 1;
    var front, lfront := cultureDirs[..n], linked[..n];
    if r in CultureReports(front, resolve, lfront) {
      CultureReportsSound(front, resolve, lfront, r);
      var k :| 0 <= k < |front| && r in CultureReport(GetFileName(front[k]), resolve, lfront[k]);
      assert cultureDirs[k] == front[k] && linked[k] == lfront[k];
    } else {
      assert r in CultureReport(GetFileName(cultureDirs[n]), resolve, linked[n]);
    }
  }

  /** Every message for one of the walked directories is written by the walk. */
  lemma {:induction false} CultureReportsComplete(cultureDirs: seq<string>, resolve: string -> Option<string>, linked: seq<bool>, k: nat, r: Report)
    requires |linked| == |cultureDirs| && k < |cultureDirs|
    requires r in CultureReport(GetFileName(cultureDirs[k]), resolve, linked[k])
    ensures r in CultureReports(cultureDirs, resolve, linked)
    decreases |cultureDirs|
  {
    var n := |cultureDirs| - 1;
    var front, lfront := cultureDirs[..n], linked[..n];
    if k < n {
      assert front[k] == cultureDirs[k] && lfront[k] == linked[k];
      CultureReportsComplete(front, resolve, lfront, k, r);
    }
  }

  /** At most one message per walked directory. */
  lemma {:induction false} CultureReportsLength(cultureDirs: seq<string>, resolve: string -> Option<string>, linked: seq<bool>)
    requires |linked| == |cultureDirs|
    ensures |CultureReports(cultureDirs, resolve, linked)| <= |cultureDirs|
    decreases |cultureDirs|
  {
    if cultureDirs != [] {
      var n := |cultureDirs| - 1;
      CultureReportsLength(cultureDirs[..n], resolve, linked[..n]);
    }
  }

  /** A message of the culture walk comes from exactly one of the walked
      directories. */
  lemma CultureReportsFrom(cultureDirs: seq<string>, resolve: string -> Option<string>, linked: seq<bool>)
    requires |linked| == |cultureDirs|
    ensures |CultureReports(cultureDirs, resolve, linked)| <= |cultureDirs|
    ensures forall r :: r in CultureReports(cultureDirs, resolve, linked) <==>
      exists k :: 0 <= k < |cultureDirs| && r in CultureReport(GetFileName(cultureDirs[k]), resolve, linked[k])
  {
    CultureReportsLength(cultureDirs, resolve, linked);
    forall r | r in CultureReports(cultureDirs, resolve, linked)
      ensures exists k :: 0 <= k < |cultureDirs| && r in CultureReport(GetFileName(cultureDirs[k]), resolve, linked[k])
    {
      CultureReportsSound(cultureDirs, resolve, linked, r);
    }
    forall r, k | 0 <= k < |cultureDirs| && r in CultureReport(GetFileName(cultureDirs[k]), resolve, linked[k])
      ensures r in CultureReports(cultureDirs, resolve, linked)
    {
      CultureReportsComplete(cultureDirs, resolve, linked, k, r);
    }
  }

  /** The culture walk reports a directory name as invalid exactly when the
      catalogue rejects the name of one of the walked directories. */
  lemma InvalidCultureReported(cultureDirs: seq<string>, resolve: string -> Option<string>, linked: seq<bool>, name: string)
    requires |linked| == |cultureDirs|
    ensures InvalidCulture(name) in CultureReports(cultureDirs, resolve, linked) <==>
      exists k :: 0 <= k < |cultureDirs| && GetFileName(cultureDirs[k]) == name && resolve(name).None?
  {
    CultureReportsFrom(cultureDirs, resolve, linked);
  }

  /** The culture walk reports a culture as having no resources exactly when
      one of the walked directories names that culture and produced no
      satellite assembly. */
  lemma NoResourcesReported(cultureDirs: seq<string>, resolve: string -> Option<string>, linked: seq<bool>, culture: string)
    requires |linked| == |cultureDirs|
    ensures NoResources(culture) in CultureReports(cultureDirs, resolve, linked) <==>
      exists k :: 0 <= k < |cultureDirs| && resolve(GetFileName(cultureDirs[k])) == Some(culture) && !linked[k]
  {
    CultureReportsFrom(cultureDirs, resolve, linked);
  }

  /** The culture walk writes no message other than the two it is built for. */
  lemma CultureReportsKinds(cultureDirs: seq<string>, resolve: string -> Option<string>, linked: seq<bool>)
    requires |linked| == |cultureDirs|
    ensures forall r :: r in CultureReports(cultureDirs, resolve, linked) ==> r.InvalidCulture? || r.NoResources?
  {
    CultureReportsFrom(cultureDirs, resolve, linked);
  }

  /** The runs of a satellite build hold a linker run exactly when the build
      linked, given that its other runs are ResGen runs. */
  lemma SatelliteRuns(resgen: string, al: string, compiles: seq<Invocation>, link: Invocation, built: bool)
    requires resgen != al && link.tool == al
    requires forall k :: 0 <= k < |compiles| ==> compiles[k].tool == resgen
    ensures built <==> al in ToolsOf(compiles + if built then [link] else [])
  {
    var runs := compiles + if built then [link] else [];
    if built {
      assert ToolsOf(runs)[|runs| - 1] == al;
    } else {
      assert forall k :: 0 <= k < |runs| ==> ToolsOf(runs)[k] == resgen;
    }
  }

  /** What `generateResourceLib` does to the files, the tool runs it makes,
      and whether it returns true. */
  datatype LibResult = LibResult(files: seq<string>, runs: seq<Invocation>, built: bool)

  /** `generateResourceLib(path, outPath, libNs, culture)` from the files
      `files`: no raw source in `path` means nothing happens; otherwise one
      ResGen run per raw source, then a re-scan of `outPath`; with blobs
      there, one al run links them all and they are deleted. */
  function LibEffect(tools: ToolPaths, succeeds: Invocation -> bool, files: seq<string>,
                     path: string, outPath: string, libNs: string, culture: string): LibResult
  {
    var raw := RawResources(Entries(files, path));
    if raw == [] then LibResult(files, [], false)
    else
      var calls := SatelliteCalls(tools.resgen, outPath, libNs, culture, raw);
      var mid := AfterCalls(files, calls, succeeds);
      var scanned := Blobs(mid, outPath);
      if scanned == [] then LibResult(mid, InvocationsOf(calls), false)
      else
        var link := LinkCall(tools.al, culture, outPath, libNs, scanned);
        LibResult(Without(AfterCall(mid, link, succeeds), scanned), InvocationsOf(calls) + [link.invocation], true)
  }

  /** `generateResourceLib` returns true exactly when it ran the linker. */
  lemma LibEffectLinks(tools: ToolPaths, succeeds: Invocation -> bool, files: seq<string>,
                       path: string, outPath: string, libNs: string, culture: string)
    requires tools.resgen != tools.al
    ensures var e := LibEffect(tools, succeeds, files, path, outPath, libNs, culture);
            e.built <==> tools.al in ToolsOf(e.runs)
  {
    var raw := RawResources(Entries(files, path));
    if raw != [] {
      var calls := SatelliteCalls(tools.resgen, outPath, libNs, culture, raw);
      var mid := AfterCalls(files, calls, succeeds);
      var scanned := Blobs(mid, outPath);
      var link := LinkCall(tools.al, culture, outPath, libNs, scanned);
      SatelliteRuns(tools.resgen, tools.al, InvocationsOf(calls), link.invocation, scanned != []);
    }
  }

  /** When `generateResourceLib` links, its last run is al writing the
      satellite library of `libNs`; afterwards no blob is left directly in
      `outPath`, and the library exists if al succeeded. */
  lemma LibEffectCleansUp(tools: ToolPaths, succeeds: Invocation -> bool, files: seq<string>,
                          path: string, outPath: string, libNs: string, culture: string)
    ensures var e := LibEffect(tools, succeeds, files, path, outPath, libNs, culture);
            e.built ==>
              && |e.runs| > 0 && e.runs[|e.runs| - 1].tool == tools.al
              && Blobs(e.files, outPath) == []
              && (succeeds(e.runs[|e.runs| - 1]) ==> SatelliteLibraryPath(outPath, libNs) in e.files)
  {
    var e := LibEffect(tools, succeeds, files, path, outPath, libNs, culture);
    if e.built {
      var raw := RawResources(Entries(files, path));
      var calls := SatelliteCalls(tools.resgen, outPath, libNs, culture, raw);
      var mid := AfterCalls(files, calls, succeeds);
      var scanned := Blobs(mid, outPath);
      var link := LinkCall(tools.al, culture, outPath, libNs, scanned);
      var dll := SatelliteLibraryPath(outPath, libNs);
      var name := libNs + ".resources.dll";
      assert dll == name || dll == DirPrefix(outPath) + name;
      assert dll[|dll| - 1] == name[|name| - 1] == 'l';
      NotIntermediate(dll);
      assert e.files == Without(AfterCall(mid, link, succeeds), scanned);
      EntriesSpec(e.files, outPath);
      forall x | x in Entries(e.files, outPath)
        ensures !IsBlob(x)
      {
        assert x in AfterCall(mid, link, succeeds) && x !in scanned && InDir(x, outPath);
        if x in mid {
          assert !IsBlob(x);
        }
      }
      FilterNone(Entries(e.files, outPath), IsBlob);
      assert e.runs[|e.runs| - 1] == link.invocation;
    }
  }

  /** One call of `generateResourceLib`: the folder it reads and the
      namespace of the library it builds. */
  datatype Job = Job(path: string, libNs: string)

  /** The calls of `generateResourceLib` for one culture folder: the folder
      itself under the root namespace, then each immediate sub-folder, in
      enumeration order, under its own name. */
  function CultureJobs(cultureDir: string, ns: string, subs: seq<string>): (r: seq<Job>)
    ensures |r| == |subs| + 1 && r[0] == Job(cultureDir, ns)
    ensures forall i :: 0 <= i < |subs| ==> r[i + 1] == Job(subs[i], GetFileName(subs[i]))
  {
    if subs == [] then [Job(cultureDir, ns)]
    else CultureJobs(cultureDir, ns, subs[..|subs| - 1]) + [Job(subs[|subs| - 1], GetFileName(subs[|subs| - 1]))]
  }

  /** Several calls of `generateResourceLib` into the same output folder, one
      after the other; `built` says whether any of them returned true. */
  function LibsEffect(tools: ToolPaths, succeeds: Invocation -> bool, files: seq<string>,
                      jobs: seq<Job>, outPath: string, culture: string): LibResult
  {
    if jobs == [] then LibResult(files, [], false)
    else
      var prev := LibsEffect(tools, succeeds, files, jobs[..|jobs| - 1], outPath, culture);
      var job := jobs[|jobs| - 1];
      var e := LibEffect(tools, succeeds, prev.files, job.path, outPath, job.libNs, culture);
      LibResult(e.files, prev.runs + e.runs, prev.built || e.built)
  }

  /** One more `generateResourceLib` call after the first `n`. */
  lemma LibsEffectSnoc(tools: ToolPaths, succeeds: Invocation -> bool, files: seq<string>,
                       jobs: seq<Job>, n: nat, outPath: string, culture: string)
    requires n < |jobs|
    ensures var prev := LibsEffect(tools, succeeds, files, jobs[..n], outPath, culture);
            var e := LibEffect(tools, succeeds, prev.files, jobs[n].path, outPath, jobs[n].libNs, culture);
            LibsEffect(tools, succeeds, files, jobs[..n + 1], outPath, culture) == LibResult(e.files, prev.runs + e.runs, prev.built || e.built)
  {
    assert jobs[..n + 1][..n] == jobs[..n];
  }

  /** Whether the `k`-th of a sequence of `generateResourceLib` calls
      returns true. */
  predicate BuiltAt(tools: ToolPaths, succeeds: Invocation -> bool, files: seq<string>,
                    jobs: seq<Job>, outPath: string, culture: string, k: nat)
    requires k < |jobs|
  {
    var before := LibsEffect(tools, succeeds, files, jobs[..k], outPath, culture);
    LibEffect(tools, succeeds, before.files, jobs[k].path, outPath, jobs[k].libNs, culture).built
  }

  /** The calls of a prefix of the jobs return what they return in the whole
      sequence. */
  lemma BuiltAtPrefix(tools: ToolPaths, succeeds: Invocation -> bool, files: seq<string>,
                      jobs: seq<Job>, n: nat, outPath: string, culture: string)
    requires n <= |jobs|
    ensures forall k :: 0 <= k < n ==>
      BuiltAt(tools, succeeds, files, jobs[..n], outPath, culture, k) == BuiltAt(tools, succeeds, files, jobs, outPath, culture, k)
  {
    forall k | 0 <= k < n
      ensures BuiltAt(tools, succeeds, files, jobs[..n], outPath, culture, k) == BuiltAt(tools, succeeds, files, jobs, outPath, culture, k)
    {
      assert jobs[..n][..k] == jobs[..k] && jobs[..n][k] == jobs[k];
    }
  }

  /** A sequence of `generateResourceLib` calls has built something exactly
      when one of the calls returned true. */
  lemma {:induction false} LibsEffectBuilt(tools: ToolPaths, succeeds: Invocation -> bool, files: seq<string>,
                                           jobs: seq<Job>, outPath: string, culture: string)
    ensures LibsEffect(tools, succeeds, files, jobs, outPath, culture).built <==>
      exists k :: 0 <= k < |jobs| && BuiltAt(tools, succeeds, files, jobs, outPath, culture, k)
    decreases |jobs|
  {
    if jobs != [] {
      var n := |jobs| - 1;
      var prev := LibsEffect(tools, succeeds, files, jobs[..n], outPath, culture);
      var e := LibEffect(tools, succeeds, prev.files, jobs[n].path, outPath, jobs[n].libNs, culture);
      assert LibsEffect(tools, succeeds, files, jobs, outPath, culture).built == (prev.built || e.built);
      assert BuiltAt(tools, succeeds, files, jobs, outPath, culture, n) == e.built;
      LibsEffectBuilt(tools, succeeds, files, jobs[..n], outPath, culture);
      BuiltAtPrefix(tools, succeeds, files, jobs, n, outPath, culture);
      if prev.built {
        var k :| 0 <= k < n && BuiltAt(tools, succeeds, files, jobs[..n], outPath, culture, k);
        assert BuiltAt(tools, succeeds, files, jobs, outPath, culture, k);
      }
      if !prev.built && !e.built {
        forall k | 0 <= k < |jobs|
          ensures !BuiltAt(tools, succeeds, files, jobs, outPath, culture, k)
        {
          if k < n {
            assert !BuiltAt(tools, succeeds, files, jobs[..n], outPath, culture, k);
          } else {
            assert k == n;
          }
        }
      }
    }
  }

  /** What one pass of the culture walk does to the files and directories,
      the runs it makes, and whether a library was linked. */
  datatype CultureResult = CultureResult(files: seq<string>, dirs: seq<string>, runs: seq<Invocation>, linked: bool)

  /** One pass of the culture walk: a name that is no culture changes
      nothing; otherwise the culture's output folder is created, and the
      folder and its immediate sub-folders are built into it. */
  function CultureEffect(tools: ToolPaths, succeeds: Invocation -> bool, s: Settings,
                         files: seq<string>, dirs: seq<string>, cultureDir: string,
                         resolve: string -> Option<string>): CultureResult
  {
    match resolve(GetFileName(cultureDir))
    case None => CultureResult(files, dirs, [], false)
    case Some(c) =>
      var outPath := Combine(s.resourcePath, c);
      var made := AddAbsent(dirs, [outPath]);
      var r := LibsEffect(tools, succeeds, files, CultureJobs(cultureDir, s.ns, Entries(made, cultureDir)), outPath, c);
      CultureResult(r.files, made, r.runs, r.built)
  }

  /** What the culture walk does, and whether a library was linked for each
      walked folder. */
  datatype WalkResult = WalkResult(files: seq<string>, dirs: seq<string>, runs: seq<Invocation>, linked: seq<bool>)

  /** The culture walk over `cultureDirs`, one pass after the other. */
  function WalkEffect(tools: ToolPaths, succeeds: Invocation -> bool, s: Settings,
                      files: seq<string>, dirs: seq<string>, cultureDirs: seq<string>,
                      resolve: string -> Option<string>): (w: WalkResult)
    ensures |w.linked| == |cultureDirs|
  {
    if cultureDirs == [] then WalkResult(files, dirs, [], [])
    else
      var n := |cultureDirs| - 1;
      var prev := WalkEffect(tools, succeeds, s, files, dirs, cultureDirs[..n], resolve);
      var e := CultureEffect(tools, succeeds, s, prev.files, prev.dirs, cultureDirs[n], resolve);
      WalkResult(e.files, e.dirs, prev.runs + e.runs, prev.linked + [e.linked])
  }

  /** One more pass of the culture walk after the first `n`. */
  lemma WalkEffectSnoc(tools: ToolPaths, succeeds: Invocation -> bool, s: Settings,
                       files: seq<string>, dirs: seq<string>, cultureDirs: seq<string>,
                       resolve: string -> Option<string>, n: nat)
    requires n < |cultureDirs|
    ensures var prev := WalkEffect(tools, succeeds, s, files, dirs, cultureDirs[..n], resolve);
            var e := CultureEffect(tools, succeeds, s, prev.files, prev.dirs, cultureDirs[n], resolve);
            WalkEffect(tools, succeeds, s, files, dirs, cultureDirs[..n + 1], resolve)
              == WalkResult(e.files, e.dirs, prev.runs + e.runs, prev.linked + [e.linked])
  {
    assert cultureDirs[..n + 1][..n] == cultureDirs[..n];
  }

  /** Whether the pass over the `k`-th walked folder links a library, made
      on the state the earlier passes left. */
  predicate LinkedAt(tools: ToolPaths, succeeds: Invocation -> bool, s: Settings,
                     files: seq<string>, dirs: seq<string>, cultureDirs: seq<string>,
                     resolve: string -> Option<string>, k: nat)
    requires k < |cultureDirs|
  {
    var before := WalkEffect(tools, succeeds, s, files, dirs, cultureDirs[..k], resolve);
    CultureEffect(tools, succeeds, s, before.files, before.dirs, cultureDirs[k], resolve).linked
  }

  /** The pass over the `k`-th folder is the same in a longer walk. */
  lemma LinkedAtPrefix(tools: ToolPaths, succeeds: Invocation -> bool, s: Settings,
                       files: seq<string>, dirs: seq<string>, cultureDirs: seq<string>,
                       resolve: string -> Option<string>, n: nat, k: nat)
    requires k < n <= |cultureDirs|
    ensures LinkedAt(tools, succeeds, s, files, dirs, cultureDirs[..n], resolve, k)
         == LinkedAt(tools, succeeds, s, files, dirs, cultureDirs, resolve, k)
  {
    assert cultureDirs[..n][..k] == cultureDirs[..k] && cultureDirs[..n][k] == cultureDirs[k];
  }

  /** One more pass of the culture walk records the flag of that pass. */
  lemma WalkLinkedSnoc(tools: ToolPaths, succeeds: Invocation -> bool, s: Settings,
                       files: seq<string>, dirs: seq<string>, cultureDirs: seq<string>,
                       resolve: string -> Option<string>, n: nat)
    requires n < |cultureDirs|
    ensures WalkEffect(tools, succeeds, s, files, dirs, cultureDirs[..n + 1], resolve).linked
         == WalkEffect(tools, succeeds, s, files, dirs, cultureDirs[..n], resolve).linked
              + [LinkedAt(tools, succeeds, s, files, dirs, cultureDirs, resolve, n)]
  {
    WalkEffectSnoc(tools, succeeds, s, files, dirs, cultureDirs, resolve, n);
  }

  /** The flag the walk records for the `k`-th folder is that of its own pass. */
  lemma {:induction false} WalkEffectAt(tools: ToolPaths, succeeds: Invocation -> bool, s: Settings,
                                        files: seq<string>, dirs: seq<string>, cultureDirs: seq<string>,
                                        resolve: string -> Option<string>, k: nat)
    requires k < |cultureDirs|
    ensures WalkEffect(tools, succeeds, s, files, dirs, cultureDirs, resolve).linked[k]
              == LinkedAt(tools, succeeds, s, files, dirs, cultureDirs, resolve, k)
    decreases |cultureDirs|
  {
    var n := |cultureDirs| - 1;
    WalkLinkedSnoc(tools, succeeds, s, files, dirs, cultureDirs, resolve, n);
    assert cultureDirs[..n + 1] == cultureDirs;
    if k < n {
      WalkEffectAt(tools, succeeds, s, files, dirs, cultureDirs[..n], resolve, k);
      LinkedAtPrefix(tools, succeeds, s, files, dirs, cultureDirs, resolve, n, k);
    }
  }

  /** The culture walk reports a culture as having no resources exactly when
      a walked folder names that culture and neither the folder nor any of
      its sub-folders made `generateResourceLib` return true. */
  lemma NoResourcesExactly(tools: ToolPaths, succeeds: Invocation -> bool, s: Settings,
                           files: seq<string>, dirs: seq<string>, cultureDirs: seq<string>,
                           resolve: string -> Option<string>, culture: string)
    ensures var w := WalkEffect(tools, succeeds, s, files, dirs, cultureDirs, resolve);
            NoResources(culture) in CultureReports(cultureDirs, resolve, w.linked) <==>
              exists k :: 0 <= k < |cultureDirs| && resolve(GetFileName(cultureDirs[k])) == Some(culture) &&
                !LinkedAt(tools, succeeds, s, files, dirs, cultureDirs, resolve, k)
  {
    var w := WalkEffect(tools, succeeds, s, files, dirs, cultureDirs, resolve);
    NoResourcesReported(cultureDirs, resolve, w.linked, culture);
    forall k | 0 <= k < |cultureDirs|
      ensures w.linked[k] == LinkedAt(tools, succeeds, s, files, dirs, cultureDirs, resolve, k)
    {
      WalkEffectAt(tools, succeeds, s, files, dirs, cultureDirs, resolve, k);
    }
  }

  /** What the default build does to the files and the runs it makes. */
  datatype DefaultResult = DefaultResult(step: DefaultStep, files: seq<string>, runs: seq<Invocation>)

  /** The second half of the default build from the files `files`: with no
      blob directly in the output folder it stops; otherwise one csc run and
      the clean-up. */
  function CompileEffect(tools: ToolPaths, succeeds: Invocation -> bool, s: Settings, files: seq<string>): DefaultResult
  {
    var blobs := Blobs(files, s.resourcePath);
    if blobs == [] then DefaultResult(NoBlobs, files, [])
    else
      var compile := CompileCall(tools.csc, s.mainAtRoot, s.ns, s.resourcePath, blobs);
      DefaultResult(Compiled, DefaultCleanup(AfterCall(files, compile, succeeds), s.resourcePath, blobs), [compile.invocation])
  }

  /** One ResGen run per raw source, then the second half. */
  function SourcesEffect(tools: ToolPaths, succeeds: Invocation -> bool, s: Settings, files: seq<string>, raw: seq<string>): DefaultResult
  {
    var calls := DefaultCalls(tools.resgen, s.ns, s.resourcePath, raw);
    var c := CompileEffect(tools, succeeds, s, AfterCalls(files, calls, succeeds));
    DefaultResult(c.step, c.files, InvocationsOf(calls) + c.runs)
  }

  /** The default build of `Main` from the files `files` and directories
      `dirs`: a missing source folder stops it; with no raw source it stops;
      otherwise the ResGen runs and the second half. */
  function DefaultEffect(tools: ToolPaths, succeeds: Invocation -> bool, s: Settings,
                         files: seq<string>, dirs: seq<string>): DefaultResult
  {
    if s.sourcePath !in dirs then DefaultResult(SourceMissing, files, [])
    else
      var raw := RawResources(Entries(files, s.sourcePath));
      if raw == [] then DefaultResult(NoSources, files, [])
      else SourcesEffect(tools, succeeds, s, files, raw)
  }

  /** The message the default build writes when it stops. */
  function DefaultReports(step: DefaultStep): seq<Report>
  {
    match step
    case NoSources => [NoDefaultSources]
    case NoBlobs => [UnableToContinue]
    case _ => []
  }

  /** How `Main` ends when the default build ends with `step`. */
  function EndOf(step: DefaultStep): Outcome
  {
    match step
    case SourceMissing => SourceDirectoryMissing
    case NoSources => NoDefaultResources
    case NoBlobs => NoDefaultBlobs
    case Compiled => Finished
  }

  /** What the build after the tool check does. */
  datatype BuildResult = BuildResult(outcome: Outcome, files: seq<string>, dirs: seq<string>,
                                     runs: seq<Invocation>, linked: seq<bool>, reports: seq<Report>)

  /** The build with the settings `s`: the default build, then, if it
      compiled, the culture walk over the folders directly in the source
      folder. */
  function BuildEffect(tools: ToolPaths, succeeds: Invocation -> bool, s: Settings,
                       files: seq<string>, dirs: seq<string>, resolve: string -> Option<string>): BuildResult
  {
    var d := DefaultEffect(tools, succeeds, s, files, dirs);
    if d.step != Compiled then BuildResult(EndOf(d.step), d.files, dirs, d.runs, [], DefaultReports(d.step))
    else
      var cultureDirs := Entries(dirs, s.sourcePath);
      var w := WalkEffect(tools, succeeds, s, d.files, dirs, cultureDirs, resolve);
      BuildResult(Finished, w.files, w.dirs, d.runs + w.runs, w.linked, CultureReports(cultureDirs, resolve, w.linked))
  }

  /** When the default build stops where: a missing source folder; no raw
      source in it; no blob in the output folder after the ResGen runs;
      otherwise it compiles. */
  lemma DefaultSteps(tools: ToolPaths, succeeds: Invocation -> bool, s: Settings,
                     files: seq<string>, dirs: seq<string>)
    ensures var d := DefaultEffect(tools, succeeds, s, files, dirs);
            var raw := RawResources(Entries(files, s.sourcePath));
            var mid := AfterCalls(files, DefaultCalls(tools.resgen, s.ns, s.resourcePath, raw), succeeds);
            && (d.step == SourceMissing <==> s.sourcePath !in dirs)
            && (d.step == NoSources <==> s.sourcePath in dirs && raw == [])
            && (d.step == NoBlobs <==> s.sourcePath in dirs && raw != [] && Blobs(mid, s.resourcePath) == [])
            && (d.step == Compiled <==> s.sourcePath in dirs && raw != [] && Blobs(mid, s.resourcePath) != [])
  {
    var raw := RawResources(Entries(files, s.sourcePath));
    if s.sourcePath in dirs && raw != [] {
      var mid := AfterCalls(files, DefaultCalls(tools.resgen, s.ns, s.resourcePath, raw), succeeds);
      assert DefaultEffect(tools, succeeds, s, files, dirs).step == CompileEffect(tools, succeeds, s, mid).step;
    }
  }

  /** A default build that compiles leaves no `*.resources` and no `*.cs`
      file directly in the output folder, whoever made them; its last run is
      csc, and the library exists when that run succeeded; every other file
      that was there before is still there. */
  lemma DefaultBuildLeavesNoIntermediates(tools: ToolPaths, succeeds: Invocation -> bool, s: Settings,
                                          files: seq<string>, dirs: seq<string>)
    ensures var d := DefaultEffect(tools, succeeds, s, files, dirs);
            d.step == Compiled ==>
              && Blobs(d.files, s.resourcePath) == []
              && ClassFiles(d.files, s.resourcePath) == []
              && |d.runs| > 0 && d.runs[|d.runs| - 1].tool == tools.csc
              && (succeeds(d.runs[|d.runs| - 1]) ==> DefaultLibraryPath(s.mainAtRoot, s.ns, s.resourcePath) in d.files)
              && forall f :: f in files && !(InDir(f, s.resourcePath) && (IsBlob(f) || IsClassFile(f))) ==> f in d.files
  {
    var d := DefaultEffect(tools, succeeds, s, files, dirs);
    if d.step == Compiled {
      var raw := RawResources(Entries(files, s.sourcePath));
      var calls := DefaultCalls(tools.resgen, s.ns, s.resourcePath, raw);
      var mid := AfterCalls(files, calls, succeeds);
      var c := CompileEffect(tools, succeeds, s, mid);
      assert d == DefaultResult(c.step, c.files, InvocationsOf(calls) + c.runs);
      var blobs := Blobs(mid, s.resourcePath);
      var compile := CompileCall(tools.csc, s.mainAtRoot, s.ns, s.resourcePath, blobs);
      assert c == DefaultResult(Compiled, DefaultCleanup(AfterCall(mid, compile, succeeds), s.resourcePath, blobs), [compile.invocation]);
      DefaultCleanupLeavesNoIntermediates(mid, tools.csc, s.mainAtRoot, s.ns, s.resourcePath, succeeds);
      EntriesSpec(d.files, s.resourcePath);
      FilterNone(Entries(d.files, s.resourcePath), IsBlob);
      FilterNone(Entries(d.files, s.resourcePath), IsClassFile);
    }
  }

  /** Each ending of the build is the step where the default build stopped,
      or `Finished` when it compiled. */
  lemma BuildOutcomeOfStep(tools: ToolPaths, succeeds: Invocation -> bool, s: Settings,
                           files: seq<string>, dirs: seq<string>, resolve: string -> Option<string>)
    ensures var b := BuildEffect(tools, succeeds, s, files, dirs, resolve);
            b.outcome == EndOf(DefaultEffect(tools, succeeds, s, files, dirs).step)
  {
  }

  /** When each ending of the build happens: a missing source folder; no raw
      source in it; no blob in the output folder after the ResGen runs;
      otherwise the build finishes. */
  lemma BuildOutcomes(tools: ToolPaths, succeeds: Invocation -> bool, s: Settings,
                      files: seq<string>, dirs: seq<string>, resolve: string -> Option<string>)
    ensures var b := BuildEffect(tools, succeeds, s, files, dirs, resolve);
            var raw := RawResources(Entries(files, s.sourcePath));
            var mid := AfterCalls(files, DefaultCalls(tools.resgen, s.ns, s.resourcePath, raw), succeeds);
            && b.outcome != ToolsMissing
            && (b.outcome == SourceDirectoryMissing <==> s.sourcePath !in dirs)
            && (b.outcome == NoDefaultResources <==> s.sourcePath in dirs && raw == [])
            && (b.outcome == NoDefaultBlobs <==> s.sourcePath in dirs && raw != [] && Blobs(mid, s.resourcePath) == [])
            && (b.outcome == Finished <==> s.sourcePath in dirs && raw != [] && Blobs(mid, s.resourcePath) != [])
  {
    DefaultSteps(tools, succeeds, s, files, dirs);
    BuildOutcomeOfStep(tools, succeeds, s, files, dirs, resolve);
  }

  /** The build finishes exactly when the default build compiled, and then
      writes the culture walk's messages for the folders directly in the
      source folder. */
  lemma BuildFinishes(tools: ToolPaths, succeeds: Invocation -> bool, s: Settings,
                      files: seq<string>, dirs: seq<string>, resolve: string -> Option<string>)
    ensures var b := BuildEffect(tools, succeeds, s, files, dirs, resolve);
            var d := DefaultEffect(tools, succeeds, s, files, dirs);
            var cultureDirs := Entries(dirs, s.sourcePath);
            && (b.outcome == Finished <==> d.step == Compiled)
            && (d.step == Compiled ==>
                  b.reports == CultureReports(cultureDirs, resolve, WalkEffect(tools, succeeds, s, d.files, dirs, cultureDirs, resolve).linked))
  {
  }

  /** A build that finishes writes only the culture walk's messages, one
      "no resources" for each walked culture folder that linked nothing. */
  lemma BuildReports(tools: ToolPaths, succeeds: Invocation -> bool, s: Settings,
                     files: seq<string>, dirs: seq<string>, resolve: string -> Option<string>, culture: string)
    ensures var b := BuildEffect(tools, succeeds, s, files, dirs, resolve);
            var d := DefaultEffect(tools, succeeds, s, files, dirs);
            var cultureDirs := Entries(dirs, s.sourcePath);
            b.outcome == Finished ==>
              && (forall r :: r in b.reports ==> r.InvalidCulture? || r.NoResources?)
              && (NoResources(culture) in b.reports <==>
                    exists k :: 0 <= k < |cultureDirs| && resolve(GetFileName(cultureDirs[k])) == Some(culture) &&
                      !LinkedAt(tools, succeeds, s, d.files, dirs, cultureDirs, resolve, k))
  {
    var d := DefaultEffect(tools, succeeds, s, files, dirs);
    var cultureDirs := Entries(dirs, s.sourcePath);
    var w := WalkEffect(tools, succeeds, s, d.files, dirs, cultureDirs, resolve);
    BuildFinishes(tools, succeeds, s, files, dirs, resolve);
    CultureReportsKinds(cultureDirs, resolve, w.linked);
    NoResourcesExactly(tools, succeeds, s, d.files, dirs, cultureDirs, resolve, culture);
  }

  class Program {
    const host: Host
    /** Where ResGen, csc and al are looked for. */
    const tools: ToolPaths

    var mainAtRoot: bool
    var ns: string
    var resourcePath: string
    var sourcePath: string

    /** The static initial state; the tool locations come from the x86
        program-files folder and the .NET runtime directory of the host. */
    constructor (host: Host, programFiles: string, runtimeDir: string)
      ensures this.host == host && tools == Locate(programFiles, runtimeDir)
      ensures Current() == Defaults
    {
      this.host := host;
      tools := Locate(programFiles, runtimeDir);
      mainAtRoot := true;
      ns := "MyResources";
      resourcePath := "Resources";
      sourcePath := "";
    }

    function Current(): Settings
      reads this
    {
      Settings(mainAtRoot, ns, resourcePath, sourcePath)
    }

    /** `checkPaths`: the four dependencies in order; the first missing one is
        reported and the check fails. */
    method CheckPaths() returns (ok: bool)
      modifies host
      ensures ok <==> FirstMissing(tools, old(host.dirs), old(host.files)).None?
      ensures ok ==> host.reports == old(host.reports)
      ensures !ok ==> host.reports == old(host.reports) + [ToolNotFound(FirstMissing(tools, old(host.dirs), old(host.files)).value)]
      ensures host.files == old(host.files) && host.dirs == old(host.dirs) && host.log == old(host.log)
    {
      var t := tools;
      if !host.DirectoryExists(t.sdk) {
        host.Write(ToolNotFound(SdkDirectory));
      } else if !host.FileExists(t.resgen) {
        host.Write(ToolNotFound(ResGen));
      } else if !host.FileExists(t.csc) {
        host.Write(ToolNotFound(Csc));
      } else if !host.FileExists(t.al) {
        host.Write(ToolNotFound(Al));
      } else {
        return true;
      }
      return false;
    }

    /** Reading the three settings, then the fallback of the source path. */
    method LoadSettings(config: Option<map<string, string>>)
      modifies this
      ensures Current() == Load(config, old(Current()))
    {
      if config.Some? {
        var found;
        found, ns := ConfigTryGet(config.value, "ResourceNamespace", ns);
        found, resourcePath := ConfigTryGet(config.value, "ResourcePath", resourcePath);
        found, sourcePath := ConfigTryGet(config.value, "ResourceSourcePath", sourcePath);
      }
      if sourcePath == [] {
        sourcePath := resourcePath;
      }
    }

    /** Deletes the given files one after the other. */
    method DeleteFiles(paths: seq<string>)
      modifies host
      ensures host.files == Without(old(host.files), paths)
      ensures host.dirs == old(host.dirs) && host.log == old(host.log) && host.reports == old(host.reports)
    {
      WithoutNothing(host.files);
      var i := 0;
      while i < |paths|
        invariant 0 <= i <= |paths|
        invariant host.files == Without(old(host.files), paths[..i])
        invariant host.dirs == old(host.dirs) && host.log == old(host.log) && host.reports == old(host.reports)
      {
        host.Delete(paths[i]);
        WithoutSnoc(old(host.files), paths[..i], paths[i]);
        assert paths[..i + 1] == paths[..i] + [paths[i]];
        i := i + 1;
      }
      assert paths[..i] == paths;
    }

    /** Runs the given tool calls one after the other (the `foreach ... exec`
        loops over the raw resources). */
    method RunAll(calls: seq<Call>)
      modifies host
      ensures host.files == AfterCalls(old(host.files), calls, host.succeeds)
      ensures host.log == old(host.log) + InvocationsOf(calls)
      ensures host.dirs == old(host.dirs) && host.reports == old(host.reports)
    {
      var i := 0;
      while i < |calls|
        invariant 0 <= i <= |calls|
        invariant host.files == AfterCalls(old(host.files), calls[..i], host.succeeds)
        invariant host.log == old(host.log) + InvocationsOf(calls[..i])
        invariant host.dirs == old(host.dirs) && host.reports == old(host.reports)
      {
        CallsStep(old(host.files), calls, host.succeeds, i);
        host.Exec(calls[i]);
        i := i + 1;
      }
      assert calls[..i] == calls;
    }

    /** The second half of `generateResourceLib`: re-scan `outPath` for blobs;
        if there are any, link them all and delete them. */
    method LinkSatellite(outPath: string, libNs: string, culture: string) returns (built: bool, ghost scanned: seq<string>)
      requires outPath in host.dirs
      modifies host
      ensures scanned == Blobs(old(host.files), outPath) && built == (scanned != [])
      ensures host.dirs == old(host.dirs) && host.reports == old(host.reports)
      ensures !built ==> host.files == old(host.files) && host.log == old(host.log)
      ensures built ==>
        var link := LinkCall(tools.al, culture, outPath, libNs, scanned);
        && host.files == Without(AfterCall(old(host.files), link, host.succeeds), scanned)
        && host.log == old(host.log) + [link.invocation]
    {
      var rescan := host.GetFiles(outPath);
      var blobs := Filter(rescan.value, IsBlob);
      scanned := blobs;
      if |blobs| == 0 {
        return false, scanned;
      }
      var dll := SatelliteLibraryPath(outPath, libNs);
      var args := LinkerArguments(culture, dll, blobs);
      host.Exec(Call(Invocation(tools.al, args), [dll]));
      DeleteFiles(blobs);
      return true, scanned;
    }

    /** `generateResourceLib`: compile each raw resource of `path` into a
        culture-tagged blob in `outPath`, then link every blob found there into
        the satellite library of `libNs` and delete those blobs. */
    method GenerateResourceLib(path: string, outPath: string, libNs: string, culture: string)
      returns (built: bool, ghost runs: seq<Invocation>)
      requires path in host.dirs && outPath in host.dirs
      modifies host
      ensures var e := LibEffect(tools, host.succeeds, old(host.files), path, outPath, libNs, culture);
              host.files == e.files && runs == e.runs && built == e.built
      ensures host.log == old(host.log) + runs
      ensures host.dirs == old(host.dirs) && host.reports == old(host.reports)
    {
      var listing := host.GetFiles(path);
      var raw := RawResources(listing.value);
      var calls := SatelliteCalls(tools.resgen, outPath, libNs, culture, raw);
      built, runs := false, [];
      if |raw| > 0 {
        RunAll(calls);
        ghost var scanned;
        built, scanned := LinkSatellite(outPath, libNs, culture);
        ghost var link := LinkCall(tools.al, culture, outPath, libNs, scanned).invocation;
        runs := InvocationsOf(calls) + if built then [link] else [];
        AppendAssoc(old(host.log), InvocationsOf(calls), if built then [link] else []);
      }
    }

    /** Compiles the blobs `found` of the output folder with every `*.cs`
        file there into the default library, then deletes the blobs and every
        `*.cs` file left in the output folder. */
    method CompileBlobs(found: seq<string>)
      requires resourcePath in host.dirs
      modifies host
      ensures var compile := CompileCall(tools.csc, mainAtRoot, ns, resourcePath, found);
              && host.files == DefaultCleanup(AfterCall(old(host.files), compile, host.succeeds), resourcePath, found)
              && host.log == old(host.log) + [compile.invocation]
      ensures host.dirs == old(host.dirs) && host.reports == old(host.reports)
    {
      var args := CompilerArguments(mainAtRoot, ns, resourcePath, found);
      host.Exec(Call(Invocation(tools.csc, args), [DefaultLibraryPath(mainAtRoot, ns, resourcePath)]));
      DeleteFiles(found);
      ghost var afterBlobs := host.files;
      var listing := host.GetFiles(resourcePath);
      DeleteFiles(Filter(listing.value, IsClassFile));
      assert host.files == Without(afterBlobs, ClassFiles(afterBlobs, resourcePath));
    }

    /** The second half of the default build (the block after "Compiling
        default resources"): re-scan the output folder for blobs; with none,
        give up; otherwise compile them with every `*.cs` file there into the
        default library, then delete the blobs and every `*.cs` file directly
        in the output folder. */
    method CompileDefault() returns (compiled: bool, ghost blobs: seq<string>)
      requires resourcePath in host.dirs
      modifies host
      ensures blobs == Blobs(old(host.files), resourcePath) && compiled == (blobs != [])
      ensures host.dirs == old(host.dirs)
      ensures var c := CompileEffect(tools, host.succeeds, Current(), old(host.files));
              && compiled == (c.step == Compiled) && host.files == c.files && host.log == old(host.log) + c.runs
              && host.reports == old(host.reports) + DefaultReports(c.step)
    {
      ghost var c := CompileEffect(tools, host.succeeds, Current(), host.files);
      var rescan := host.GetFiles(resourcePath);
      var found := Filter(rescan.value, IsBlob);
      blobs := found;
      assert found == Blobs(old(host.files), resourcePath);
      if |found| == 0 {
        host.Write(UnableToContinue);
        assert c == DefaultResult(NoBlobs, old(host.files), []);
        return false, blobs;
      }
      ghost var compile := CompileCall(tools.csc, mainAtRoot, ns, resourcePath, found);
      assert c == DefaultResult(Compiled, DefaultCleanup(AfterCall(old(host.files), compile, host.succeeds), resourcePath, found), [compile.invocation]);
      CompileBlobs(found);
      assert host.reports == old(host.reports) + [];
      return true, blobs;
    }

    /** The default build of `Main`: compile each raw resource of the source
        folder into a blob and an accessor class in the output folder, then
        build the default library from them. */
    method BuildDefault() returns (step: DefaultStep)
      requires resourcePath in host.dirs
      modifies host
      ensures var d := DefaultEffect(tools, host.succeeds, Current(), old(host.files), old(host.dirs));
              && step == d.step && host.files == d.files && host.log == old(host.log) + d.runs
      ensures host.dirs == old(host.dirs)
      ensures host.reports == old(host.reports) + DefaultReports(step)
    {
      var listing := host.GetFiles(sourcePath);
      if listing.None? {
        return SourceMissing;
      }
      var raw := RawResources(listing.value);
      if |raw| == 0 {
        host.Write(NoDefaultSources);
        return NoSources;
      }
      var calls := DefaultCalls(tools.resgen, ns, resourcePath, raw);
      RunAll(calls);
      ghost var c := CompileEffect(tools, host.succeeds, Current(), host.files);
      var compiled;
      ghost var blobs;
      compiled, blobs := CompileDefault();
      step := if compiled then Compiled else NoBlobs;
      AppendAssoc(old(host.log), InvocationsOf(calls), c.runs);
    }

    /** One pass of the culture walk of `Main`: the directory's name must
        name a culture; then the satellite library of the default namespace
        is built from the directory itself and one library per sub-folder,
        named after it, into the culture's output folder. A culture for which
        no library was linked is reported. */
    method BuildCulture(cultureDir: string, resolve: string -> Option<string>)
      returns (linked: bool, ghost runs: seq<Invocation>)
      requires cultureDir in host.dirs
      modifies host
      ensures var e := CultureEffect(tools, host.succeeds, Current(), old(host.files), old(host.dirs), cultureDir, resolve);
              && host.files == e.files && host.dirs == e.dirs && runs == e.runs && linked == e.linked
      ensures host.log == old(host.log) + runs
      ensures host.reports == old(host.reports) + CultureReport(GetFileName(cultureDir), resolve, linked)
      ensures forall d :: d in old(host.dirs) ==> d in host.dirs
    {
      var name := GetFileName(cultureDir);
      var culture := resolve(name);
      if culture.None? {
        host.Write(InvalidCulture(name));
        return false, [];
      }
      var c := culture.value;
      var outPath := Combine(resourcePath, c);
      host.CreateDirectory(outPath);
      linked, runs := BuildLibs(cultureDir, outPath, c);
      if !linked {
        host.Write(NoResources(c));
      }
    }

    /** The satellite libraries of one culture, built into `outPath`: first
        the one of the default namespace from the culture directory itself,
        then one per immediate sub-folder, named after it. `linked` says
        whether any of them was linked. */
    method BuildLibs(cultureDir: string, outPath: string, c: string) returns (linked: bool, ghost runs: seq<Invocation>)
      requires cultureDir in host.dirs && outPath in host.dirs
      modifies host
      ensures var r := LibsEffect(tools, host.succeeds, old(host.files), CultureJobs(cultureDir, ns, Entries(old(host.dirs), cultureDir)), outPath, c);
              host.files == r.files && runs == r.runs && linked == r.built
      ensures host.log == old(host.log) + runs
      ensures host.dirs == old(host.dirs) && host.reports == old(host.reports)
    {
      var subs := host.GetDirectories(cultureDir);
      var jobs := CultureJobs(cultureDir, ns, subs.value);
      forall k | 0 <= k < |jobs|
        ensures jobs[k].path in old(host.dirs)
      {
        if k > 0 {
          assert jobs[k].path == subs.value[k - 1] && subs.value[k - 1] in subs.value;
          EntriesSpec(old(host.dirs), cultureDir);
        }
      }
      var empty := true;
      runs := [];
      var i := 0;
      while i < |jobs|
        invariant 0 <= i <= |jobs|
        invariant host.dirs == old(host.dirs) && host.reports == old(host.reports)
        invariant host.log == old(host.log) + runs
        invariant var r := LibsEffect(tools, host.succeeds, old(host.files), jobs[..i], outPath, c);
                  host.files == r.files && runs == r.runs && empty == !r.built
      {
        ghost var e := LibEffect(tools, host.succeeds, host.files, jobs[i].path, outPath, jobs[i].libNs, c);
        LibsEffectSnoc(tools, host.succeeds, old(host.files), jobs, i, outPath, c);
        var built;
        ghost var more;
        built, more := GenerateResourceLib(jobs[i].path, outPath, jobs[i].libNs, c);
        assert host.files == e.files && more == e.runs && built == e.built;
        AppendAssoc(old(host.log), runs, more);
        runs := runs + more;
        empty := empty && !built;
        i := i + 1;
      }
      assert jobs[..i] == jobs;
      linked := !empty;
    }

    /** Builds the given culture directories in order. */
    method BuildCultures(cultureDirs: seq<string>, resolve: string -> Option<string>)
      returns (linked: seq<bool>, ghost runs: seq<Invocation>)
      requires forall d :: d in cultureDirs ==> d in host.dirs
      modifies host
      ensures var w := WalkEffect(tools, host.succeeds, Current(), old(host.files), old(host.dirs), cultureDirs, resolve);
              && host.files == w.files && host.dirs == w.dirs && runs == w.runs && linked == w.linked
      ensures host.reports == old(host.reports) + CultureReports(cultureDirs, resolve, linked)
      ensures host.log == old(host.log) + runs
    {
      linked, runs := [], [];
      var i := 0;
      while i < |cultureDirs|
        invariant 0 <= i <= |cultureDirs| && |linked| == i
        invariant var w := WalkEffect(tools, host.succeeds, Current(), old(host.files), old(host.dirs), cultureDirs[..i], resolve);
                  host.files == w.files && host.dirs == w.dirs && runs == w.runs && linked == w.linked
        invariant host.reports == old(host.reports) + CultureReports(cultureDirs[..i], resolve, linked)
        invariant host.log == old(host.log) + runs
        invariant forall d :: d in old(host.dirs) ==> d in host.dirs
      {
        var dir := cultureDirs[i];
        TakeNext(cultureDirs, i);
        WalkEffectSnoc(tools, host.succeeds, Current(), old(host.files), old(host.dirs), cultureDirs, resolve, i);
        var built, more := BuildCulture(dir, resolve);
        AppendAssoc(old(host.log), runs, more);
        runs := runs + more;
        CultureReportsSnoc(cultureDirs[..i], resolve, linked, dir, built);
        AppendAssoc(old(host.reports), CultureReports(cultureDirs[..i], resolve, linked), CultureReport(GetFileName(dir), resolve, built));
        linked := linked + [built];
        i := i + 1;
      }
      assert cultureDirs[..i] == cultureDirs;
    }

    /** The culture walk of `Main`: every directory directly in the source
        folder, in enumeration order; an invalid name is reported and the walk
        goes on. `linked` says, directory by directory, whether a library was
        linked for it. */
    method WalkCultures(resolve: string -> Option<string>) returns (linked: seq<bool>, ghost runs: seq<Invocation>)
      requires sourcePath in host.dirs
      modifies host
      ensures var cultureDirs := Entries(old(host.dirs), sourcePath);
              var w := WalkEffect(tools, host.succeeds, Current(), old(host.files), old(host.dirs), cultureDirs, resolve);
              && host.files == w.files && host.dirs == w.dirs && runs == w.runs && linked == w.linked
              && host.reports == old(host.reports) + CultureReports(cultureDirs, resolve, linked)
      ensures host.log == old(host.log) + runs
    {
      var listing := host.GetDirectories(sourcePath);
      EntriesSpec(host.dirs, sourcePath);
      linked, runs := BuildCultures(listing.value, resolve);
    }

    /** Reading the settings, then creating the output folder. */
    method Configure(config: Option<map<string, string>>)
      modifies this, host
      ensures Current() == Load(config, old(Current()))
      ensures host.dirs == AddAbsent(old(host.dirs), [resourcePath])
      ensures host.files == old(host.files) && host.log == old(host.log) && host.reports == old(host.reports)
    {
      LoadSettings(config);
      host.CreateDirectory(resourcePath);
    }

    /** The part of `Main` after the settings are read and the output folder
        is created: the default build, then the culture walk. */
    method BuildAll(resolve: string -> Option<string>) returns (outcome: Outcome, ghost linked: seq<bool>)
      requires resourcePath in host.dirs
      modifies host
      ensures var b := BuildEffect(tools, host.succeeds, Current(), old(host.files), old(host.dirs), resolve);
              && outcome == b.outcome && linked == b.linked
              && host.files == b.files && host.dirs == b.dirs
              && host.log == old(host.log) + b.runs && host.reports == old(host.reports) + b.reports
    {
      ghost var d := DefaultEffect(tools, host.succeeds, Current(), host.files, host.dirs);
      var step := BuildDefault();
      if step == Compiled {
        ghost var reports0, dirs0 := host.reports, host.dirs;
        assert reports0 == old(host.reports) && dirs0 == old(host.dirs);
        ghost var runs;
        linked, runs := WalkCultures(resolve);
        assert host.reports == reports0 + CultureReports(Entries(dirs0, sourcePath), resolve, linked);
        AppendAssoc(old(host.log), d.runs, runs);
        outcome := Finished;
      } else {
        outcome, linked := EndOf(step), [];
      }
    }

    /** `Main` once the tools are found: read the settings, create the
        output folder, then build. */
    method Configured(config: Option<map<string, string>>, resolve: string -> Option<string>)
      returns (outcome: Outcome, ghost linked: seq<bool>)
      modifies this, host
      ensures Current() == Load(config, old(Current()))
      ensures var b := BuildEffect(tools, host.succeeds, Current(), old(host.files), AddAbsent(old(host.dirs), [resourcePath]), resolve);
              && outcome == b.outcome && linked == b.linked
              && host.files == b.files && host.dirs == b.dirs
              && host.log == old(host.log) + b.runs && host.reports == old(host.reports) + b.reports
      ensures outcome == SourceDirectoryMissing ==> sourcePath != resourcePath && sourcePath !in old(host.dirs)
    {
      Configure(config);
      ghost var made := host.dirs;
      outcome, linked := BuildAll(resolve);
      BuildOutcomes(tools, host.succeeds, Current(), old(host.files), made, resolve);
    }

    /** `Main`: check the tools, read the settings, create the output folder,
        then build. `config` is the application settings (`None` when they
        cannot be read) and `resolve` the culture catalogue, which maps a
        directory name to a culture name or rejects it. */
    method Run(config: Option<map<string, string>>, resolve: string -> Option<string>)
      returns (outcome: Outcome, ghost linked: seq<bool>)
      modifies this, host
      ensures outcome == ToolsMissing <==> FirstMissing(tools, old(host.dirs), old(host.files)).Some?
      ensures outcome == ToolsMissing ==>
        && Current() == old(Current())
        && host.files == old(host.files) && host.dirs == old(host.dirs) && host.log == old(host.log)
        && host.reports == old(host.reports) + [ToolNotFound(FirstMissing(tools, old(host.dirs), old(host.files)).value)]
      ensures outcome != ToolsMissing ==>
        && Current() == Load(config, old(Current()))
        && var b := BuildEffect(tools, host.succeeds, Current(), old(host.files), AddAbsent(old(host.dirs), [resourcePath]), resolve);
           && outcome == b.outcome && linked == b.linked
           && host.files == b.files && host.dirs == b.dirs
           && host.log == old(host.log) + b.runs && host.reports == old(host.reports) + b.reports
      ensures outcome == SourceDirectoryMissing ==> sourcePath != resourcePath && sourcePath !in old(host.dirs)
    {
      var ok := CheckPaths();
      if ok {
        outcome, linked := Configured(config, resolve);
      } else {
        outcome, linked := ToolsMissing, [];
      }
    }
  }
}

=== FILE: config.dfy ===
/** The application settings: their defaults, `configTryGet`, and the
    fallback of the source path to the output path. */
module Config {
  import opened Wrappers

  /** The settings `Main` works with. `mainAtRoot` is never read from the
      configuration; it keeps its initial value. */
  datatype Settings = Settings(mainAtRoot: bool, ns: string, resourcePath: string, sourcePath: string)

  /** The static initial values; an unset source path (null) is the empty string. */
  const Defaults: Settings := Settings(true, "MyResources", "Resources", "")

  /** The value an application-settings collection gives for `key` when it
      could be read (`config` is `None` when reading it failed) and the key is
      present with a non-empty value. */
  function Lookup(config: Option<map<string, string>>, key: string): Option<string>
  {
    if config.Some? && key in config.value && config.value[key] != [] then Some(config.value[key]) else None
  }

  /** `configTryGet`: the current value is replaced only by a present,
      non-empty configured value, and the result says whether it was. */
  method ConfigTryGet(config: map<string, string>, key: string, value: string) returns (found: bool, newValue: string)
    ensures found <==> Lookup(Some(config), key).Some?
    ensures found ==> newValue == config[key] && newValue != []
    ensures !found ==> newValue == value
  {
    if key !in config {
      return false, value;
    }
    var v := config[key];
    if |v| == 0 {
      return false, value;
    }
    return true, v;
  }

  /** The settings after reading the three keys and applying the fallback of
      the source path, starting from `initial`. */
  function Load(config: Option<map<string, string>>, initial: Settings): Settings
  {
    var ns := Lookup(config, "ResourceNamespace").GetOr(initial.ns);
    var out := Lookup(config, "ResourcePath").GetOr(initial.resourcePath);
    var src := Lookup(config, "ResourceSourcePath").GetOr(initial.sourcePath);
    Settings(initial.mainAtRoot, ns, out, if src == [] then out else src)
  }

  /** Reading the configuration a second time changes nothing: a value that
      was configured is configured again, and a source path that fell back
      to the output path stays that output path. */
  lemma LoadStable(config: Option<map<string, string>>, initial: Settings)
    ensures Load(config, Load(config, initial)) == Load(config, initial)
  {
  }

  /** The source path is empty only when the output path is, and it differs
      from the output path only when it was configured or set initially. */
  lemma LoadSourceFallback(config: Option<map<string, string>>, initial: Settings)
    ensures var s := Load(config, initial);
            && (s.sourcePath == [] ==> s.resourcePath == [])
            && (s.sourcePath != s.resourcePath ==> Lookup(config, "ResourceSourcePath").Some? || initial.sourcePath != [])
  {
  }

  /** Starting from the defaults, no setting the build uses is ever empty,
      the library goes to the root, and an unconfigured source path is the
      output path. */
  lemma LoadFromDefaults(config: Option<map<string, string>>)
    ensures var s := Load(config, Defaults);
            && s.mainAtRoot
            && s.ns != [] && s.resourcePath != [] && s.sourcePath != []
            && (Lookup(config, "ResourceSourcePath").None? ==> s.sourcePath == s.resourcePath)
  {
    LoadSourceFallback(config, Defaults);
  }
}

=== FILE: discovery.dfy ===
/** `getRawResourcesFiles`: which directory entries are raw resource sources. */
module Discovery {
  import opened Strings
  import opened Seqs
  import opened Paths

  /** The accepted extensions, in lower case. */
  const RawExtensions: set<string> := {".txt", ".restext", ".resx"}

  /** An entry ending in `.txt`, `.restext` or `.resx`, ignoring case. */
  predicate IsRawResource(file: string)
  {
    EndsWithIgnoreCase(file, ".txt") || EndsWithIgnoreCase(file, ".restext") || EndsWithIgnoreCase(file, ".resx")
  }

  /** The raw resource sources among `entries`, in enumeration order. */
  function RawResources(entries: seq<string>): (r: seq<string>)
    ensures forall f {:trigger f in r} :: f in r <==> f in entries && IsRawResource(f)
  {
    Filter(entries, IsRawResource)
  }

  /** The filter is order-preserving: it maps a concatenation to the
      concatenation of its results and keeps or drops each entry on its own. */
  lemma RawResourcesOrder(a: seq<string>, b: seq<string>)
    ensures RawResources(a + b) == RawResources(a) + RawResources(b)
    ensures |a| == 1 ==> RawResources(a) == if IsRawResource(a[0]) then a else []
  {
    FilterAppend(a, b, IsRawResource);
    if |a| == 1 {
      assert a[1..] == [];
    }
  }

  /** A suffix `ext` made of a dot and lower-case letters, matched ignoring
      case, is the whole extension of the path. */
  lemma ExtensionOfSuffix(f: string, ext: string)
    requires |ext| >= 2 && ext[0] == '.'
    requires forall j :: 1 <= j < |ext| ==> IsLowerLetter(ext[j])
    requires EndsWithIgnoreCase(f, ext)
    ensures Lower(GetExtension(f)) == ext
  {
    var start := |f| - |ext|;
    var tail := f[start..];
    assert Lower(tail) == Lower(ext);
    forall j | 0 <= j < |ext|
      ensures LowerChar(tail[j]) == ext[j]
    {
      assert Lower(tail)[j] == Lower(ext)[j];
    }
    assert LowerChar(f[start]) == '.';
    assert f[start] == '.';
    forall j | start < j < |f|
      ensures f[j] != '.' && f[j] !in Separators
    {
      assert LowerChar(tail[j - start]) == ext[j - start];
      assert tail[j - start] == f[j];
      LowerCharLetter(f[j]);
    }
    var dot := LastIndexOfAny(f, {'.'});
    assert dot == start;
    assert LastIndexOfAny(f, Separators) < start;
    assert GetExtension(f) == tail;
  }

  /** A path whose folded extension is an accepted one ends in it, ignoring case. */
  lemma ExtensionIsRaw(f: string)
    requires Lower(GetExtension(f)) in RawExtensions
    ensures IsRawResource(f)
  {
    var e := GetExtension(f);
    var ext := Lower(e);
    assert e == f[|f| - |e|..];
    LowerLower(e);
    assert Lower(f[|f| - |ext|..]) == Lower(ext);
    assert EndsWithIgnoreCase(f, ext);
    assert ext == ".txt" || ext == ".restext" || ext == ".resx";
  }

  /** An entry is a raw resource source exactly when its extension, folded to
      lower case, is one of `.txt`, `.restext`, `.resx`. */
  lemma RawResourceByExtension(f: string)
    ensures IsRawResource(f) <==> Lower(GetExtension(f)) in RawExtensions
  {
    if EndsWithIgnoreCase(f, ".txt") {
      ExtensionOfSuffix(f, ".txt");
    } else if EndsWithIgnoreCase(f, ".restext") {
      ExtensionOfSuffix(f, ".restext");
    } else if EndsWithIgnoreCase(f, ".resx") {
      ExtensionOfSuffix(f, ".resx");
    }
    if Lower(GetExtension(f)) in RawExtensions {
      ExtensionIsRaw(f);
    }
  }
}

=== FILE: host.dfy ===
/** The machine the build runs on, reduced to what the build observes: the
    files and directories (as paths, in enumeration order), the external tool
    invocations made so far, and the messages written to the console. */
module Host {
  import opened Wrappers
  import opened Seqs
  import opened Paths
  import opened Tools

  /** One run of an external tool: the executable and its command line. */
  datatype Invocation = Invocation(tool: string, args: string)

  /** An invocation together with the files the tool is asked to write. */
  datatype Call = Call(invocation: Invocation, outputs: seq<string>)

  /** The console messages the model keeps. */
  datatype Report =
    | ToolNotFound(missing: Dependency)
    | NoDefaultSources
    | UnableToContinue
    | InvalidCulture(name: string)
    | NoResources(culture: string)

  /** The entries of `all` that lie directly in `dir`, in enumeration order. */
  function Entries(all: seq<string>, dir: string): seq<string>
  {
    if all == [] then []
    else (if InDir(all[0], dir) then [all[0]] else []) + Entries(all[1..], dir)
  }

  /** The entries of a directory are exactly the paths directly inside it. */
  lemma {:induction false} EntriesSpec(all: seq<string>, dir: string)
    ensures forall f :: f in Entries(all, dir) <==> f in all && InDir(f, dir)
  {
    if all != [] {
      EntriesSpec(all[1..], dir);
      assert all == [all[0]] + all[1..];
    }
  }

  /** The files after one call: a tool that succeeds writes the files it was
      asked for; one that fails writes nothing. */
  function AfterCall(files: seq<string>, call: Call, succeeds: Invocation -> bool): (r: seq<string>)
    ensures forall f {:trigger f in r} :: f in r <==> f in files || (succeeds(call.invocation) && f in call.outputs)
  {
    if succeeds(call.invocation) then AddAbsent(files, call.outputs) else files
  }

  /** The files after a sequence of calls, made one after the other. */
  function AfterCalls(files: seq<string>, calls: seq<Call>, succeeds: Invocation -> bool): (r: seq<string>)
    ensures forall f {:trigger f in r} :: f in files ==> f in r
  {
    if calls == [] then files
    else AfterCall(AfterCalls(files, calls[..|calls| - 1], succeeds), calls[|calls| - 1], succeeds)
  }

  function InvocationsOf(calls: seq<Call>): (r: seq<Invocation>)
    ensures |r| == |calls|
    ensures forall k :: 0 <= k < |calls| ==> r[k] == calls[k].invocation
  {
    seq(|calls|, i requires 0 <= i < |calls| => calls[i].invocation)
  }

  /** The executables of a sequence of invocations. */
  function ToolsOf(log: seq<Invocation>): (r: seq<string>)
    ensures |r| == |log|
  {
    seq(|log|, i requires 0 <= i < |log| => log[i].tool)
  }

  /** Making one more call of a sequence. */
  lemma CallsStep(files: seq<string>, calls: seq<Call>, succeeds: Invocation -> bool, i: nat)
    requires i < |calls|
    ensures AfterCalls(files, calls[..i + 1], succeeds) == AfterCall(AfterCalls(files, calls[..i], succeeds), calls[i], succeeds)
    ensures InvocationsOf(calls[..i + 1]) == InvocationsOf(calls[..i]) + [calls[i].invocation]
  {
    assert calls[..i + 1][..i] == calls[..i];
  }

  /** Every file a call sequence asked for and whose call succeeded exists afterwards. */
  lemma {:induction false} AfterCallsWrites(files: seq<string>, calls: seq<Call>, succeeds: Invocation -> bool, k: nat, f: string)
    requires k < |calls| && succeeds(calls[k].invocation) && f in calls[k].outputs
    ensures f in AfterCalls(files, calls, succeeds)
  {
    if k < |calls| - 1 {
      AfterCallsWrites(files, calls[..|calls| - 1], succeeds, k, f);
    }
  }

  /** A call sequence creates nothing it was not asked for. */
  lemma {:induction false} AfterCallsOnlyWrites(files: seq<string>, calls: seq<Call>, succeeds: Invocation -> bool, f: string)
    requires f in AfterCalls(files, calls, succeeds) && f !in files
    ensures exists k :: 0 <= k < |calls| && f in calls[k].outputs
  {
    var init := calls[..|calls| - 1];
    if f in AfterCalls(files, init, succeeds) {
      AfterCallsOnlyWrites(files, init, succeeds, f);
      var k :| 0 <= k < |init| && f in init[k].outputs;
      assert calls[k] == init[k];
    } else {
      assert f in calls[|calls| - 1].outputs;
    }
  }

  /** Removing nothing leaves the sequence as it was. */
  lemma {:induction false} WithoutNothing(s: seq<string>)
    ensures Without(s, []) == s
  {
    if s != [] {
      WithoutNothing(s[1..]);
      assert s == [s[0]] + s[1..];
    }
  }

  /** Removing a further path removes it from what was left. */
  lemma {:induction false} WithoutSnoc(s: seq<string>, gone: seq<string>, x: string)
    ensures Without(Without(s, gone), [x]) == Without(s, gone + [x])
  {
    if s != [] {
      WithoutSnoc(s[1..], gone, x);
      assert Without(s, gone) == (if s[0] !in gone then [s[0]] else []) + Without(s[1..], gone);
      FilterAppend(if s[0] !in gone then [s[0]] else [], Without(s[1..], gone), y => y !in [x]);
    }
  }

  class Host {
    var files: seq<string>
    var dirs: seq<string>
    var log: seq<Invocation>
    var reports: seq<Report>
    /** Which invocations succeed, that is, write the files they are asked for. */
    const succeeds: Invocation -> bool

    constructor (files: seq<string>, dirs: seq<string>, succeeds: Invocation -> bool)
      ensures this.files == files && this.dirs == dirs && this.succeeds == succeeds
      ensures log == [] && reports == []
    {
      this.files := files;
      this.dirs := dirs;
      this.succeeds := succeeds;
      log := [];
      reports := [];
    }

    /** `Directory.Exists`. */
    predicate DirectoryExists(dir: string)
      reads this
    {
      dir in dirs
    }

    /** `File.Exists`. */
    predicate FileExists(file: string)
      reads this
    {
      file in files
    }

    /** `Directory.GetFiles(dir, "*.*", TopDirectoryOnly)`; `None` stands for
        the exception thrown for a directory that does not exist. */
    method GetFiles(dir: string) returns (r: Option<seq<string>>)
      ensures r == if dir in dirs then Some(Entries(files, dir)) else None
    {
      if dir in dirs {
        r := Some(Entries(files, dir));
      } else {
        r := None;
      }
    }

    /** `Directory.GetDirectories(dir, "*", TopDirectoryOnly)`. */
    method GetDirectories(dir: string) returns (r: Option<seq<string>>)
      ensures r == if dir in dirs then Some(Entries(dirs, dir)) else None
    {
      if dir in dirs {
        r := Some(Entries(dirs, dir));
      } else {
        r := None;
      }
    }

    /** `Directory.CreateDirectory`: nothing happens when it exists already. */
    method CreateDirectory(dir: string)
      modifies this
      ensures dirs == AddAbsent(old(dirs), [dir])
      ensures files == old(files) && log == old(log) && reports == old(reports)
    {
      dirs := AddAbsent(dirs, [dir]);
    }

    /** `File.Delete`: a missing file is not an error. */
    method Delete(file: string)
      modifies this
      ensures files == Without(old(files), [file])
      ensures dirs == old(dirs) && log == old(log) && reports == old(reports)
    {
      files := Without(files, [file]);
    }

    /** `exec`: run a tool to completion. The run is logged; its output files
        exist afterwards when it succeeds. */
    method Exec(call: Call)
      modifies this
      ensures log == old(log) + [call.invocation]
      ensures files == AfterCall(old(files), call, succeeds)
      ensures dirs == old(dirs) && reports == old(reports)
    {
      log := log + [call.invocation];
      files := AfterCall(files, call, succeeds);
    }

    /** A console message. */
    method Write(report: Report)
      modifies this
      ensures reports == old(reports) + [report]
      ensures files == old(files) && dirs == old(dirs) && log == old(log)
    {
      reports := reports + [report];
    }
  }
}

=== FILE: naming.dfy ===
/** How a resource file's base name becomes a namespace, a class name and
    the names of the files built from it. */
module Naming {
  import opened Strings

  /** The namespace and the class (symbol) name derived for one resource. */
  datatype Derived = Derived(ns: string, symbol: string)

  /** A base name `a.b.c` under root `R` yields namespace `R.a.b` and symbol
      `c`; a base name without a dot yields `R` and the whole base name. */
  function DeriveNames(root: string, baseName: string): (d: Derived)
    ensures '.' !in d.symbol
  {
    var names := Split(baseName, '.');
    SplitPiecesFree(baseName, '.');
    if |names| > 1 then
      Derived(root + "." + Join(names[..|names| - 1], '.'), names[|names| - 1])
    else
      SplitCount(baseName, '.');
      Derived(root, baseName)
  }

  /** The intermediate blob of the default build. */
  function DefaultBlobName(d: Derived): string
  {
    d.ns + "." + d.symbol + ".resources"
  }

  /** The accessor source file of the default build. */
  function ClassFileName(d: Derived): string
  {
    d.symbol + ".cs"
  }

  /** The intermediate blob of a satellite build. */
  function SatelliteBlobName(libNs: string, stem: string, culture: string): string
  {
    libNs + "." + stem + "." + culture + ".resources"
  }

  /** The split point is the last dot: every piece but the last joins back
      to what precedes the last dot, and the last piece is what follows it. */
  lemma SplitAtLastDot(s: string)
    requires '.' in s
    ensures var names := Split(s, '.');
            var k := LastIndexOfAny(s, {'.'});
            |names| > 1 && Join(names[..|names| - 1], '.') == s[..k] && names[|names| - 1] == s[k + 1..]
  {
    var k := LastIndexOfAny(s, {'.'});
    var a, b := s[..k], s[k + 1..];
    assert s == a + ['.'] + b;
    assert '.' !in b;
    SplitConcat(a, b, '.');
    SplitNoSeparator(b, '.');
    JoinSplit(a, '.');
    var names := Split(s, '.');
    assert names == Split(a, '.') + [b];
    assert names[..|names| - 1] == Split(a, '.');
  }

  /** With a dot in the base name, the namespace is the root followed by
      everything before the last dot, and the symbol is what follows it. */
  lemma DeriveDotted(root: string, baseName: string)
    requires '.' in baseName
    ensures var k := LastIndexOfAny(baseName, {'.'});
            DeriveNames(root, baseName) == Derived(root + "." + baseName[..k], baseName[k + 1..])
  {
    SplitAtLastDot(baseName);
  }

  /** Without a dot, the namespace is the root and the symbol the base name. */
  lemma DeriveUndotted(root: string, baseName: string)
    requires '.' !in baseName
    ensures DeriveNames(root, baseName) == Derived(root, baseName)
  {
    SplitCount(baseName, '.');
  }

  /** In both cases the qualified name `ns.symbol` is `root.baseName`. */
  lemma DeriveRoundTrip(root: string, baseName: string)
    ensures var d := DeriveNames(root, baseName);
            d.ns + "." + d.symbol == root + "." + baseName
  {
    if '.' in baseName {
      var k := LastIndexOfAny(baseName, {'.'});
      DeriveDotted(root, baseName);
      assert baseName == baseName[..k] + "." + baseName[k + 1..];
    } else {
      DeriveUndotted(root, baseName);
    }
  }

  /** The default blob is named after the root namespace and the whole base name. */
  lemma DefaultBlobNameRoundTrip(root: string, baseName: string)
    ensures DefaultBlobName(DeriveNames(root, baseName)) == root + "." + baseName + ".resources"
  {
    DeriveRoundTrip(root, baseName);
  }

  /** A satellite blob built under the root namespace carries the name of the
      default blob of the same base name, with the culture before `.resources`. */
  lemma SatelliteMatchesDefault(root: string, baseName: string, culture: string)
    ensures var d := DeriveNames(root, baseName);
            SatelliteBlobName(root, baseName, culture) == d.ns + "." + d.symbol + "." + culture + ".resources"
  {
    DeriveRoundTrip(root, baseName);
  }

  /** Distinct base names give distinct default blobs. */
  lemma DefaultBlobNameInjective(root: string, a: string, b: string)
    requires DefaultBlobName(DeriveNames(root, a)) == DefaultBlobName(DeriveNames(root, b))
    ensures a == b
  {
    DefaultBlobNameRoundTrip(root, a);
    DefaultBlobNameRoundTrip(root, b);
    var x, y := root + "." + a + ".resources", root + "." + b + ".resources";
    assert |a| == |b|;
    assert forall i :: 0 <= i < |a| ==> a[i] == x[|root| + 1 + i] == y[|root| + 1 + i] == b[i];
  }
}

=== FILE: paths.dfy ===
/** The parts of `System.IO.Path` the build uses, on Windows separators. */
module Paths {
  import opened Strings

  /** Directory, alternative directory and volume separators. */
  const Separators: set<char> := {'\\', '/', ':'}

  predicate NoSeparator(name: string)
  {
    forall i :: 0 <= i < |name| ==> name[i] !in Separators
  }

  /** `Path.IsPathRooted`. */
  predicate IsRooted(p: string)
  {
    (|p| >= 1 && (p[0] == '\\' || p[0] == '/')) || (|p| >= 2 && p[1] == ':')
  }

  /** What `Path.Combine` puts in front of a relative second argument. */
  function DirPrefix(dir: string): string
  {
    if dir == [] then []
    else if dir[|dir| - 1] in Separators then dir
    else dir + "\\"
  }

  /** `Path.Combine(dir, name)`. */
  function Combine(dir: string, name: string): string
  {
    if name == [] then dir
    else if IsRooted(name) then name
    else DirPrefix(dir) + name
  }

  /** `Path.GetFileName`: what follows the last separator. */
  function GetFileName(p: string): string
  {
    p[LastIndexOfAny(p, Separators) + 1..]
  }

  /** `Path.GetFileNameWithoutExtension`: the file name up to its last dot. */
  function GetFileNameWithoutExtension(p: string): string
  {
    var name := GetFileName(p);
    var dot := LastIndexOfAny(name, {'.'});
    if dot == -1 then name else name[..dot]
  }

  /** What follows the last separator of a path, and any prefix of it,
      holds no separator. */
  lemma TailNoSeparator(p: string, k: int, n: nat)
    requires -1 <= k < |p| && k + 1 + n <= |p|
    requires forall j :: k < j < |p| ==> p[j] !in Separators
    ensures NoSeparator(p[k + 1..][..n])
  {
    var t := p[k + 1..][..n];
    forall i | 0 <= i < |t|
      ensures t[i] !in Separators
    {
      assert t[i] == p[k + 1 + i];
    }
  }

  /** A file name, with or without its extension, holds no separator. */
  lemma FileNameNoSeparator(p: string)
    ensures NoSeparator(GetFileName(p)) && NoSeparator(GetFileNameWithoutExtension(p))
  {
    var k := LastIndexOfAny(p, Separators);
    var name := GetFileName(p);
    var dot := LastIndexOfAny(name, {'.'});
    TailNoSeparator(p, k, |name|);
    assert name[..|name|] == name;
    if dot != -1 {
      TailNoSeparator(p, k, dot);
      assert name[..dot] == p[k + 1..][..dot];
    }
  }

  /** `Path.GetExtension`: from the last dot of the file name, or empty when
      that dot ends the path or there is none. */
  function GetExtension(p: string): (ext: string)
    ensures ext == [] || (ext[0] == '.' && |ext| >= 2)
  {
    var dot := LastIndexOfAny(p, {'.'});
    if dot == -1 || dot == |p| - 1 || dot < LastIndexOfAny(p, Separators) then []
    else p[dot..]
  }

  /** `f` names an entry directly inside directory `dir` (what `Directory.GetFiles`
      and `Directory.GetDirectories` list for `dir` with the top directory only). */
  predicate InDir(f: string, dir: string)
  {
    var pre := DirPrefix(dir);
    |pre| < |f| && f[..|pre|] == pre && NoSeparator(f[|pre|..])
  }

  /** A separator-free name combined with a directory lies directly in that
      directory, and `GetFileName` recovers the name. */
  lemma CombineInDir(dir: string, name: string)
    requires name != [] && NoSeparator(name)
    ensures InDir(Combine(dir, name), dir)
    ensures GetFileName(Combine(dir, name)) == name
  {
    var p := Combine(dir, name);
    var pre := DirPrefix(dir);
    assert !IsRooted(name);
    assert p == pre + name && p[..|pre|] == pre && p[|pre|..] == name;
    assert pre != [] ==> p[|pre| - 1] in Separators;
    var k := LastIndexOfAny(p, Separators);
    assert k == |pre| - 1;
  }

  /** Conversely, every entry of a directory is that directory combined with
      its own file name. */
  lemma InDirCombine(f: string, dir: string)
    requires InDir(f, dir)
    ensures GetFileName(f) != [] && f == Combine(dir, GetFileName(f))
  {
    var pre := DirPrefix(dir);
    var name := f[|pre|..];
    assert f == pre + name;
    CombineInDir(dir, name);
  }
}

=== FILE: seqs.dfy ===
/** Order-preserving operations on sequences: the LINQ `Where` filter and the
    list updates the file system performs when files are deleted or created. */
module Seqs {

  /** Keeps, in order, the elements that satisfy `p`. */
  function Filter<T(!new)>(s: seq<T>, p: T -> bool): (r: seq<T>)
    ensures |r| <= |s|
    ensures forall x {:trigger x in r} :: x in r <==> x in s && p(x)
  {
    if s == [] then []
    else (if p(s[0]) then [s[0]] else []) + Filter(s[1..], p)
  }

  /** Filtering distributes over concatenation: the filter neither reorders
      nor duplicates what it keeps. */
  lemma {:induction false} FilterAppend<T(!new)>(a: seq<T>, b: seq<T>, p: T -> bool)
    ensures Filter(a + b, p) == Filter(a, p) + Filter(b, p)
  {
    if a == [] {
      assert a + b == b;
    } else {
      assert (a + b)[0] == a[0] && (a + b)[1..] == a[1..] + b;
      FilterAppend(a[1..], b, p);
      var head := if p(a[0]) then [a[0]] else [];
      assert Filter(a + b, p) == head + (Filter(a[1..], p) + Filter(b, p));
      assert Filter(a, p) == head + Filter(a[1..], p);
    }
  }

  /** Nothing survives a filter that rejects every element. */
  lemma {:induction false} FilterNone<T(!new)>(s: seq<T>, p: T -> bool)
    requires forall x :: x in s ==> !p(x)
    ensures Filter(s, p) == []
  {
    if s != [] {
      assert s[0] in s;
      assert forall x :: x in s[1..] ==> x in s;
      FilterNone(s[1..], p);
    }
  }

  /** `s` with every occurrence of the elements of `gone` removed. */
  function Without<T(==,!new)>(s: seq<T>, gone: seq<T>): (r: seq<T>)
    ensures forall x {:trigger x in r} :: x in r <==> x in s && x !in gone
  {
    Filter(s, x => x !in gone)
  }

  /** `s` followed by those elements of `extra` it does not hold yet, in order. */
  function AddAbsent<T(==,!new)>(s: seq<T>, extra: seq<T>): (r: seq<T>)
    ensures forall x {:trigger x in r} :: x in r <==> x in s || x in extra
    ensures |s| <= |r| && r[..|s|] == s
    decreases extra
  {
    if extra == [] then s
    else if extra[0] in s then AddAbsent(s, extra[1..])
    else AddAbsent(s + [extra[0]], extra[1..])
  }

  /** The elements of `s` prefixed with `prefix`, in order. */
  function Prefixed(prefix: string, s: seq<string>): (r: seq<string>)
    ensures |r| == |s|
    ensures forall i :: 0 <= i < |s| ==> r[i] == prefix + s[i]
  {
    seq(|s|, i requires 0 <= i < |s| => prefix + s[i])
  }

  /** A proof hint: taking one more element of `s` appends it to the prefix. */
  lemma TakeNext<T>(s: seq<T>, i: nat)
    requires i < |s|
    ensures s[..i] + [s[i]] == s[..i + 1]
  {
  }

  /** A proof hint: concatenation is associative, so a log extended twice is
      the log extended once by both parts. */
  lemma AppendAssoc<T>(s: seq<T>, a: seq<T>, b: seq<T>)
    ensures s + a + b == s + (a + b)
  {
  }
}

=== FILE: strings.dfy ===
/** The .NET string operations the build relies on: case-insensitive suffix
    tests, `String.Split` on one character, `String.Join`, and `LastIndexOf`. */
module Strings {
  import opened Seqs


  /** Case folding of one character. Only ASCII letters are folded. */
  function LowerChar(c: char): char
  {
    if 'A' <= c <= 'Z' then (c as int + 32) as char else c
  }

  function Lower(s: string): (r: string)
    ensures |r| == |s|
  {
    seq(|s|, i requires 0 <= i < |s| => LowerChar(s[i]))
  }

  predicate IsLowerLetter(c: char)
  {
    'a' <= c <= 'z'
  }

  /** A character that folds to a lower-case letter is an ASCII letter. */
  lemma LowerCharLetter(c: char)
    requires IsLowerLetter(LowerChar(c))
    ensures 'a' <= c <= 'z' || 'A' <= c <= 'Z'
  {
  }

  /** Folding twice folds once. */
  lemma LowerLower(s: string)
    ensures Lower(Lower(s)) == Lower(s)
  {
    assert forall j :: 0 <= j < |s| ==> Lower(Lower(s))[j] == LowerChar(LowerChar(s[j])) == Lower(s)[j];
  }

  /** `s.EndsWith(suffix, StringComparison.InvariantCultureIgnoreCase)`. */
  predicate EndsWithIgnoreCase(s: string, suffix: string)
  {
    |suffix| <= |s| && Lower(s[|s| - |suffix|..]) == Lower(suffix)
  }

  /** The index of the last character of `s` that lies in `cs`, or -1. */
  function LastIndexOfAny(s: string, cs: set<char>): (i: int)
    ensures -1 <= i < |s|
    ensures i >= 0 ==> s[i] in cs
    ensures forall j :: i < j < |s| ==> s[j] !in cs
  {
    if s == [] then -1
    else if s[|s| - 1] in cs then |s| - 1
    else LastIndexOfAny(s[..|s| - 1], cs)
  }

  /** `s.Split(sep)`: the maximal separator-free pieces of `s`, empty pieces included. */
  function Split(s: string, sep: char): (parts: seq<string>)
    ensures |parts| >= 1
  {
    if s == [] then [[]]
    else
      var rest := Split(s[1..], sep);
      if s[0] == sep then [[]] + rest
      else [[s[0]] + rest[0]] + rest[1..]
  }

  /** `String.Join(sep, parts)`. */
  function Join(parts: seq<string>, sep: char): string
  {
    if parts == [] then []
    else if |parts| == 1 then parts[0]
    else parts[0] + [sep] + Join(parts[1..], sep)
  }

  /** Appending a part adds one separator and the part. */
  lemma {:induction false} JoinSnoc(parts: seq<string>, x: string, sep: char)
    requires parts != []
    ensures Join(parts + [x], sep) == Join(parts, sep) + [sep] + x
  {
    if |parts| == 1 {
      assert parts + [x] == [parts[0], x];
    } else {
      assert (parts + [x])[1..] == parts[1..] + [x];
      JoinSnoc(parts[1..], x, sep);
    }
  }

  /** No piece of a split holds the separator. */
  lemma {:induction false} SplitPiecesFree(s: string, sep: char)
    ensures forall i :: 0 <= i < |Split(s, sep)| ==> sep !in Split(s, sep)[i]
  {
    if s != [] {
      SplitPiecesFree(s[1..], sep);
    }
  }

  /** Joining the pieces of a split gives back the string. */
  lemma {:induction false} JoinSplit(s: string, sep: char)
    ensures Join(Split(s, sep), sep) == s
  {
    if s != [] {
      JoinSplit(s[1..], sep);
      var rest := Split(s[1..], sep);
      if s[0] == sep {
        assert Split(s, sep) == [[]] + rest;
      } else if |rest| == 1 {
        assert Join(rest, sep) == rest[0];
      } else {
        var parts := Split(s, sep);
        assert parts[1..] == rest[1..];
        assert Join(rest, sep) == rest[0] + [sep] + Join(rest[1..], sep);
      }
    }
  }

  /** A string without the separator splits into itself alone. */
  lemma {:induction false} SplitNoSeparator(s: string, sep: char)
    requires sep !in s
    ensures Split(s, sep) == [s]
  {
    if s != [] {
      SplitNoSeparator(s[1..], sep);
      assert [s[0]] + s[1..] == s;
    }
  }

  /** Splitting at one separator occurrence splits the two sides independently. */
  lemma {:induction false} SplitConcat(a: string, b: string, sep: char)
    ensures Split(a + [sep] + b, sep) == Split(a, sep) + Split(b, sep)
  {
    var rb := Split(b, sep);
    if a == [] {
      assert a + [sep] + b == [sep] + b;
      SplitCons(sep, b, sep);
    } else {
      var c, rest := a[0], a[1..];
      var ra := Split(rest, sep);
      assert a == [c] + rest;
      assert a + [sep] + b == [c] + (rest + [sep] + b);
      calc {
        Split(a + [sep] + b, sep);
      == { SplitCons(c, rest + [sep] + b, sep); SplitConcat(rest, b, sep); }
        if c == sep then [[]] + (ra + rb) else [[c] + (ra + rb)[0]] + (ra + rb)[1..];
      == { assert (ra + rb)[0] == ra[0] && (ra + rb)[1..] == ra[1..] + rb; }
        if c == sep then [[]] + (ra + rb) else [[c] + ra[0]] + (ra[1..] + rb);
      == { AppendAssoc([[]], ra, rb); AppendAssoc([[c] + ra[0]], ra[1..], rb); }
        (if c == sep then [[]] + ra else [[c] + ra[0]] + ra[1..]) + rb;
      == { SplitCons(c, rest, sep); }
        Split(a, sep) + rb;
      }
    }
  }

  /** Splitting a string that starts with a given character. */
  lemma SplitCons(c: char, t: string, sep: char)
    ensures Split([c] + t, sep) ==
      var rest := Split(t, sep);
      if c == sep then [[]] + rest else [[c] + rest[0]] + rest[1..]
  {
    assert ([c] + t)[1..] == t;
  }

  /** The split has more than one piece exactly when the separator occurs. */
  lemma SplitCount(s: string, sep: char)
    ensures |Split(s, sep)| == 1 <==> sep !in s
  {
    if sep in s {
      var k :| 0 <= k < |s| && s[k] == sep;
      assert s == s[..k] + [sep] + s[k + 1..];
      SplitConcat(s[..k], s[k + 1..], sep);
    } else {
      SplitNoSeparator(s, sep);
    }
  }

  /** Splitting a join of separator-free parts gives back the parts. */
  lemma {:induction false} SplitJoin(parts: seq<string>, sep: char)
    requires parts != []
    requires forall i :: 0 <= i < |parts| ==> sep !in parts[i]
    ensures Split(Join(parts, sep), sep) == parts
  {
    SplitNoSeparator(parts[0], sep);
    if |parts| > 1 {
      SplitJoin(parts[1..], sep);
      SplitConcat(parts[0], Join(parts[1..], sep), sep);
    }
  }
}

=== FILE: tools.dfy ===
/** Where the three external tools are looked for, and `checkPaths`. */
module Tools {
  import opened Wrappers
  import opened Paths

  datatype ToolPaths = ToolPaths(sdk: string, resgen: string, csc: string, al: string)

  /** The Windows SDK tools folder under the x86 program-files folder. */
  function SdkPath(programFiles: string): string
  {
    Combine(Combine(Combine(Combine(Combine(programFiles, "Microsoft SDKs"), "Windows"), "v8.0A"), "bin"), "NETFX 4.0 Tools")
  }

  /** The tool locations for a given x86 program-files folder and .NET runtime
      directory (both host lookups, given here as parameters). */
  function Locate(programFiles: string, runtimeDir: string): ToolPaths
  {
    var sdk := SdkPath(programFiles);
    ToolPaths(sdk, Combine(sdk, "ResGen.exe"), Combine(runtimeDir, "csc.exe"), Combine(sdk, "al.exe"))
  }

  /** ResGen and al sit directly in the SDK folder and csc in the runtime
      directory, under their own file names; so the three paths are distinct. */
  lemma LocateSpec(programFiles: string, runtimeDir: string)
    ensures var t := Locate(programFiles, runtimeDir);
            && InDir(t.resgen, t.sdk) && GetFileName(t.resgen) == "ResGen.exe"
            && InDir(t.al, t.sdk) && GetFileName(t.al) == "al.exe"
            && InDir(t.csc, runtimeDir) && GetFileName(t.csc) == "csc.exe"
            && t.resgen != t.al && t.resgen != t.csc && t.al != t.csc
  {
    var t := Locate(programFiles, runtimeDir);
    ToolInFolder(t.sdk, "ResGen.exe");
    ToolInFolder(t.sdk, "al.exe");
    ToolInFolder(runtimeDir, "csc.exe");
  }

  lemma ToolInFolder(dir: string, name: string)
    requires name in {"ResGen.exe", "al.exe", "csc.exe"}
    ensures InDir(Combine(dir, name), dir) && GetFileName(Combine(dir, name)) == name
  {
    assert NoSeparator(name);
    CombineInDir(dir, name);
  }

  /** The dependencies `checkPaths` looks for, in the order it looks. */
  datatype Dependency = SdkDirectory | ResGen | Csc | Al

  function Rank(d: Dependency): nat
  {
    match d
    case SdkDirectory => 0
    case ResGen => 1
    case Csc => 2
    case Al => 3
  }

  /** Whether one dependency exists among the given directories and files. */
  predicate Present(d: Dependency, t: ToolPaths, dirs: seq<string>, files: seq<string>)
  {
    match d
    case SdkDirectory => t.sdk in dirs
    case ResGen => t.resgen in files
    case Csc => t.csc in files
    case Al => t.al in files
  }

  /** `checkPaths`: the first missing dependency, or `None` when all exist. */
  function FirstMissing(t: ToolPaths, dirs: seq<string>, files: seq<string>): Option<Dependency>
  {
    if t.sdk !in dirs then Some(SdkDirectory)
    else if t.resgen !in files then Some(ResGen)
    else if t.csc !in files then Some(Csc)
    else if t.al !in files then Some(Al)
    else None
  }

  /** The check passes exactly when all four dependencies exist, and it
      reports a dependency exactly when that one is missing and every
      dependency checked before it exists. */
  lemma {:induction false} FirstMissingSpec(t: ToolPaths, dirs: seq<string>, files: seq<string>)
    ensures FirstMissing(t, dirs, files).None? <==> forall d :: Present(d, t, dirs, files)
    ensures forall d :: FirstMissing(t, dirs, files) == Some(d) <==>
      !Present(d, t, dirs, files) && forall e :: Rank(e) < Rank(d) ==> Present(e, t, dirs, files)
  {
    var r := FirstMissing(t, dirs, files);
    if r.None? {
      forall d ensures Present(d, t, dirs, files) {
        match d
        case SdkDirectory =>
        case ResGen =>
        case Csc =>
        case Al =>
      }
    }
    forall d ensures r == Some(d) <==> !Present(d, t, dirs, files) && forall e :: Rank(e) < Rank(d) ==> Present(e, t, dirs, files)
    {
      assert Present(SdkDirectory, t, dirs, files) <==> t.sdk in dirs;
      assert Present(ResGen, t, dirs, files) <==> t.resgen in files;
      assert Present(Csc, t, dirs, files) <==> t.csc in files;
      assert Present(Al, t, dirs, files) <==> t.al in files;
    }
  }
}

=== FILE: wrappers.dfy ===
/** The optional value used for the source's null returns and its partial lookups. */
module Wrappers {
  datatype Option<+T> = None | Some(value: T) {
    /** The held value, or `default` when there is none. */
    function GetOr(default: T): T
    {
      match this
      case Some(v) => v
      case None => default
    }
  }
}
